=== FILE: README.md ===
# GraphiteJS core, modelled in Dafny

GraphiteJS is a small browser game framework in the style of pygame, with a WebSocket room
server next to it. This project models its state logic and its value logic:

- the colour classes of the client draft (`client/js/graphite.js`) and of the archive draft
  (`archive/main.js`). That covers hex and `rgb()` text, the archive's `fromHex` parsing, and
  channel arithmetic;
- rectangles, anchored placement by `Surface.getRect` in both drafts, and the scale helpers;
- the `Mouse` button and scroll state and the `Keyboarder` key-state machine;
- the client and room table of the WebSocket server
  (`resources/js/graphitejs_server_v0.1.0.js`).

Objects that the source updates in place are classes: `Color` (one per draft), `Rect`,
`Surface` (one per draft), `Mouse`, `Keyboarder` and `Server`. Each class method is specified
against a pure function of the old state, and the properties are proved about those functions.

JavaScript details are modelled where they matter:

- `toString(16)` and `parseInt(text, 16)`: leading white space, an optional sign, a `0x`
  prefix, the longest run of digits, and NaN when there are no digits;
- `slice` clamping;
- `||` treating 0 and NaN as falsy;
- `===` on NaN;
- a later method definition replacing an earlier one with the same name;
- calls of undefined identifiers, which throw.

The modules are:

- `Common`: `Option`, `Result` and the errors the source throws.
- `Radix`: integer to text in radix 10 and 16, `parseInt(…, 16)`, `padStart` and `slice`.
- `ClientColor` and `ArchiveColor`: the colour classes of the two drafts.
- `Geometry`: `Box` values, the nine anchors, collisions, move, inflate, normalise and scale, plus the `Rect` class.
- `ClientSurface` and `ArchiveSurface`: the surfaces and `getRect` of the two drafts.
- `Pointer`: the mouse.
- `Keyboard`: the key-state machine.
- `RoomServer`: the server's bookkeeping.

The two drafts' `Mouse` and `Keyboarder` classes do the same thing, except for
`updatePosition`, so one class models each. `Rect` combines the two drafts' methods. Both
drafts define the constructor, `move`, `inflate` and `collidePoint`:

- the constructors are the same;
- both `move`s add an offset to the corner, read from `x`/`y` in the client and from
  `dx`/`dy` in the archive, so `Move` takes the two numbers;
- `inflate` and `collidePoint` follow the client draft, because the archive's are broken
  (see "Left out").

`normalize`, `copy`, `center`, `size` and the edge getters exist only in the archive.

The scalar colour arithmetic follows the client draft's later `multiply(scalar)` and
`divide(scalar)`. Those are the definitions that take effect, because they replace the
colour-operand versions defined just before them.

Events are passed in as parameters:

- a DOM event becomes its fields;
- `performance.now()` becomes a `now` parameter;
- a socket is a number, and the sockets whose `readyState` is `OPEN` are a set;
- a `send` is a member of the returned recipient set.

## Model

| member | source | states |
|---|---|---|
| Radix.NatToString | client/js/graphite.js:196-200 | `toString(base)` of a non-negative integer: at least one digit, every digit below the base, all lower case |
| Radix.IntToString | client/js/graphite.js:196-200 | `toString(base)` of any integer: a minus sign exactly when the number is negative |
| Radix.NatToStringRoundTrip | client/js/graphite.js:196-200 | reading back the printed digits gives the printed number |
| Radix.HexDigitCount | client/js/graphite.js:196-200 | radix 16 prints one digit exactly below 16, two digits (high, low) from 16 to 255, three or more from 256 |
| Radix.PadStart | client/js/graphite.js:196-200 | the `while` padding: the result has the wider of the two lengths, ends with the text, and has only zeros in front of it |
| Radix.PaddedByte | client/js/graphite.js:196-200 | a channel 0..255 pads to exactly two lower-case hex digits whose value is the channel |
| Radix.TrimStart | archive/main.js:107-112 | `parseInt` skips leading JavaScript white space: the result is no longer, and does not start with white space |
| Radix.TrimStartDropsWhitespace | archive/main.js:107-112 | the trimmed text is a suffix of the input, and everything cut off before it is white space |
| Radix.HexRun | archive/main.js:107-112 | the digits `parseInt` reads: a prefix of hex digits, stopped by the first non-digit |
| Radix.ParseTwoDigits | archive/main.js:107-112 | `parseInt` of two hex digits, upper or lower case, is the byte they spell |
| Radix.Slice | archive/main.js:107-112 | `slice(from, to)`: the sub-sequence when both bounds are in range, the rest of the text when only `to` is past the end, and empty when `to <= from` or `from` is past the end |
| ClientColor.Color.constructor | client/js/graphite.js:180-185 | omitted channels default to 0, 0, 0 and alpha 255 |
| ClientColor.Color.Clone | client/js/graphite.js:187-189 | a new colour that `equals` this one |
| ClientColor.Color.PaddedHex | client/js/graphite.js:196-200 | the `_toHex` loop computes `ChannelHex`; for 0..255 that is two digits spelling the channel |
| ClientColor.Color.ToHex | client/js/graphite.js:202-204 | `#` and three padded channels, whatever alpha is; with r, g, b in byte range, length 7 with r, g, b spelled at 1, 3 and 5 |
| ClientColor.Color.ToHexA | client/js/graphite.js:191-194 | `#` and four padded channels; in byte range, length 9 with alpha spelled last, at 7 |
| ClientColor.ChannelDecimal | client/js/graphite.js:206-212 | a channel's decimal text never contains the separator `,` |
| ClientColor.DecimalReadsBack | client/js/graphite.js:206-212 | the decimal text of a non-negative channel reads back as the channel |
| ClientColor.SplitJoin | client/js/graphite.js:206-212 | joining comma-free fields with `,` and splitting on `,` gives the fields back |
| ClientColor.Color.ToRGB | client/js/graphite.js:210-212 | `rgb(` … `)`, and the text inside splits on `,` into exactly the r, g, b decimals, whatever alpha is |
| ClientColor.Color.ToRGBA | client/js/graphite.js:206-208 | `rgba(` … `)`, and the text inside splits on `,` into exactly the r, g, b, a decimals |
| ClientColor.Color.Equals | client/js/graphite.js:224-226 | every colour `equals` itself, and colours that are `equals` agree on whether r, g, b are whole |
| ClientColor.EqualsIsEquivalence | client/js/graphite.js:224-226 | `equals` is reflexive, symmetric and transitive |
| ClientColor.EqualColorsPrintAlike | client/js/graphite.js:206-212 | colours that are `equals` print the same `rgb()` and `rgba()` text |
| ClientColor.Color.Add | client/js/graphite.js:228-233 | r, g, b increased by the other colour's; alpha untouched; returns the same object |
| ClientColor.Color.Minus | client/js/graphite.js:235-240 | r, g, b decreased by the other colour's; alpha untouched; returns the same object |
| ClientColor.Color.Multiply | client/js/graphite.js:256-261 | the effective `multiply(scalar)`: r, g, b scaled, alpha untouched, same object |
| ClientColor.Color.Divide | client/js/graphite.js:263-268 | the effective `divide(scalar)`: r, g, b divided, alpha untouched, same object |
| ClientColor.AddThenMinus | client/js/graphite.js:228-240 | `add` then `minus` of a different colour restores all four channels |
| ClientColor.MultiplyThenDivide | client/js/graphite.js:256-268 | `multiply(s)` then `divide(s)` restores all four channels for a non-zero scalar |
| ArchiveColor.OrElse | archive/main.js:100-105 | the logical-or fallback always gives a number; it keeps the value unless it is 0 or NaN, which become the fallback |
| ArchiveColor.Color.constructor | archive/main.js:100-105 | each channel falls back with a logical or: a zero r, g or b stays 0, but a zero alpha becomes 255 |
| ArchiveColor.Color.FromHex | archive/main.js:107-112 | r, g, b are `parseInt` of characters 1-2, 3-4 and 5-6, and alpha is the argument |
| ArchiveColor.Padded | archive/main.js:118-131 | the ternary padding equals zero-padding to two characters; for 0..255 it is two digits spelling the channel |
| ArchiveColor.DraftsPadAlike | archive/main.js:118-131 | the archive's ternary and the client's `_toHex` loop give the same text for every integer |
| ArchiveColor.HexText | archive/main.js:126-131 | for byte channels: length 7, `#` first, r, g, b spelled at 1, 3 and 5 |
| ArchiveColor.HexAText | archive/main.js:118-124 | starts with the `toHex` text; for byte channels length 9, with alpha spelled at 7 |
| ArchiveColor.HexRoundTrip | archive/main.js:107-131 | `fromHex(toHex())` restores r, g and b for every channel in 0..255 |
| ArchiveColor.ParseHexOfExtension | archive/main.js:107-112 | `fromHex` reads only the first seven characters, so trailing alpha digits are ignored |
| ArchiveColor.RedParses | archive/main.js:107-112 | `#FF0000` parses to (255, 0, 0): upper-case digits are accepted |
| ArchiveColor.RedPrints | archive/main.js:126-131 | red (255, 0, 0) prints back in lower case as `#ff0000` |
| ArchiveColor.Color.ToHex | archive/main.js:126-131 | for byte channels, parsing the text back gives r, g, b |
| ArchiveColor.Color.ToHexA | archive/main.js:118-124 | for byte channels, `fromHex` of the text gives r, g, b back (the alpha digits are ignored) |
| ArchiveColor.Decimal | archive/main.js:133-139 | the decimal text string concatenation prints has no comma, and is `NaN` exactly for NaN |
| ArchiveColor.DecimalDraftsAgree | archive/main.js:133-139 | on integers the archive prints the same decimal text as the client |
| ArchiveColor.Color.ToRGB | archive/main.js:137-139 | `rgb(` … `)`, and the text inside splits on `,` into exactly the r, g, b decimals, NaN printed as `NaN` |
| ArchiveColor.Color.ToRGBA | archive/main.js:133-135 | `rgba(` … `)`, and the text inside splits on `,` into exactly the four decimals |
| ArchiveColor.Color.Clone | archive/main.js:114-116 | a new colour through the `||` constructor; it `equals` the original exactly when no channel is NaN and alpha is not 0 |
| ArchiveColor.CloneSameExactly | archive/main.js:100-105 | the `||` fallbacks keep every channel `===` exactly when no channel is NaN and alpha is not 0 |
| ArchiveColor.Color.Equals | archive/main.js:233-235 | two colours are `equals` exactly when all four channels are equal integers, so a NaN channel equals nothing |
| ArchiveColor.Color.Add | archive/main.js:237-242 | r, g, b summed, NaN absorbing; alpha untouched; returns the same object |
| ArchiveColor.Color.Minus | archive/main.js:244-249 | r, g, b subtracted, NaN absorbing; alpha untouched; returns the same object |
| ArchiveColor.EqualsItselfUnlessNaN | archive/main.js:233-235 | a colour `equals` itself exactly when none of its channels is NaN |
| Geometry.PlacedAt | client/js/graphite.js:330-377 | the `getRect` switch: the rectangle's named anchor is the given point, and its size is the surface's |
| Geometry.PlacedAtUnique | archive/main.js:339-378 | a rectangle is determined by its size and the position of one anchor |
| Geometry.AnchorsOnEdges | archive/main.js:516-530 | the corner anchors are the combinations of `top`/`bottom` with `left`/`right` |
| Geometry.OverlapsIffCommonInterior | client/js/graphite.js:446-453 | the negated separation test holds exactly when some point is strictly inside both rectangles (positive sizes) |
| Geometry.TouchingIsSeparated | client/js/graphite.js:437-453 | rectangles that share only an edge count as separated, although `collidePoint` accepts the shared edge in both |
| Geometry.SeparatedSymmetric | client/js/graphite.js:446-453 | separation does not depend on the order of the two rectangles |
| Geometry.CollideRectNeverAnswers | client/js/graphite.js:446-453 | `collideRect` as written never returns a result, overlapping or not |
| Geometry.MovedAnchors | client/js/graphite.js:419-422 | `move` keeps the size, moves every anchor by the offset, and the opposite offset undoes it |
| Geometry.MovedTwice | archive/main.js:454-457 | two moves are one move by the summed offsets |
| Geometry.MovedContains | client/js/graphite.js:419-444 | a point moved with a rectangle is inside it exactly when it was inside before |
| Geometry.MovedToAnchor | client/js/graphite.js:424-427 | `moveTo` puts the top-left corner at the point and keeps the size |
| Geometry.CenterBetweenEdges | archive/main.js:502-530 | the centre is the middle anchor, and lies between the edges when the size is not negative |
| Geometry.InflateAsWrittenShiftsCenter | client/js/graphite.js:429-435 | as written, `inflate` moves the centre by the full amounts, so the centre stays only when nothing changes |
| Geometry.InflatedKeepsCenter | client/js/graphite.js:429-435 | centred growth keeps the centre, grows the size by the amounts, and is undone by the opposite amounts |
| Geometry.Normalized | archive/main.js:489-496 | x and y unchanged; width and height clamped below at 0 |
| Geometry.NormalizedIdempotent | archive/main.js:489-496 | the result is never negative, a non-negative size is left alone, and normalising twice is normalising once |
| Geometry.ScaledByComposes | client/js/graphite.js:300-303 | scaling twice multiplies the factors; a non-zero factor is undone by its reciprocal |
| Geometry.Rect.constructor | client/js/graphite.js:412-417 | corner and size taken from the arguments |
| Geometry.Rect.Move | client/js/graphite.js:419-422 | the new value is the old one moved by the offsets (the same in archive/main.js:454-457) |
| Geometry.Rect.MoveTo | client/js/graphite.js:424-427 | the corner replaced, the size kept |
| Geometry.Rect.Inflate | client/js/graphite.js:429-435 | width and height reduced by the amounts, x and y reduced by half of them |
| Geometry.Rect.CollidePoint | client/js/graphite.js:437-444 | the point lies between the left and right edges and between the top and bottom edges, the edges included; this is `ContainsPoint` on the rectangle's value, the test the moving and touching lemmas are stated for |
| Geometry.CenterInside | archive/main.js:502-507 | a rectangle contains its own centre exactly when neither its width nor its height is negative |
| Geometry.Rect.CollideRect | client/js/graphite.js:446-453 | the result of the as-written `collideRect`: always the `ReferenceError` |
| Geometry.Rect.Normalize | archive/main.js:489-496 | the new value is the old one normalised |
| Geometry.Rect.Copy | archive/main.js:498-500 | a new rectangle, equal to this one |
| Geometry.Rect.CenterPoint | archive/main.js:502-507 | the `center` anchor of the rectangle |
| Geometry.Rect.GetSize | archive/main.js:509-514 | the width and height |
| Geometry.Rect.GetTop | archive/main.js:516-518 | the y of the top-left anchor |
| Geometry.Rect.GetRight | archive/main.js:520-522 | the x of the bottom-right anchor |
| Geometry.Rect.GetBottom | archive/main.js:524-526 | the y of the bottom-right anchor |
| Geometry.Rect.GetLeft | archive/main.js:528-530 | the x of the top-left anchor |
| Geometry.RectScale | client/js/graphite.js:295-298 | width and height taken from the argument's `x` and `y`, the corner kept |
| Geometry.RectScaleBy | client/js/graphite.js:300-303 | width and height multiplied by the factor, the corner kept |
| Geometry.MoveCopy | archive/main.js:498-500 | a copy can be moved, and the method may not modify the original, so the copy is independent |
| ClientSurface.ClientNamesRoundTrip | client/js/graphite.js:336-372 | each of the nine client names selects one anchor, and each anchor has one name |
| ClientSurface.ClientPlace | client/js/graphite.js:330-377 | throws a TypeError exactly for a missing or key-less argument, or `null`/`undefined` under the first key; otherwise the rectangle has the surface's size |
| ClientSurface.ClientPlaceByName | client/js/graphite.js:330-377 | for each of the nine names, the named anchor of the rectangle is the given point |
| ClientSurface.ClientPlaceFirstKeyOnly | client/js/graphite.js:330-377 | only the first key is consulted, and an unknown name with a point puts the top-left corner at that point |
| ClientSurface.Surface.constructor | client/js/graphite.js:311-316 | the given size, and a new opaque black fill colour |
| ClientSurface.Surface.Fill | client/js/graphite.js:318-324 | `null` clears the fill and a colour is copied into a new equal one; with no argument the default `Color()` throws a `TypeError` |
| ClientSurface.Surface.Unfill | client/js/graphite.js:326-328 | no fill colour; the size is kept |
| ClientSurface.Surface.GetRect | client/js/graphite.js:330-377 | a new rectangle placed as `ClientPlace` says, or its error |
| ClientSurface.SurfaceScale | client/js/graphite.js:280-283 | the surface takes the given size; the fill is untouched |
| ClientSurface.SurfaceScaleBy | client/js/graphite.js:285-288 | both dimensions multiplied by the factor; the fill is untouched |
| ArchiveSurface.ArchiveNamesRoundTrip | archive/main.js:319-323 | the allowed-names list and the switch agree: a name is allowed exactly when it selects an anchor |
| ArchiveSurface.ArchivePlace | archive/main.js:318-379 | succeeds exactly for one allowed key with a point; the rectangle then has the surface's size and its named anchor at the point. A missing argument, and `null`/`undefined` under a valid key, throw a TypeError; other key lists throw "Invalid position" |
| ArchiveSurface.TooManyArgumentsUnreachable | archive/main.js:325-335 | the "Too many arguments" error is never thrown; every other failure is "Invalid position", or the TypeError of a single key without a point |
| ArchiveSurface.ArchivePlaceByName | archive/main.js:339-378 | each allowed name places the rectangle by its anchor |
| ArchiveSurface.DraftsDiffer | archive/main.js:318-379 | the drafts agree on `center`, and both throw for `null` under it; the archive rejects the client's `top`; the client treats the archive's `topcenter` as top-left |
| ArchiveSurface.Surface.constructor | archive/main.js:292-304 | the given size |
| ArchiveSurface.Surface.GetRect | archive/main.js:318-379 | a new rectangle placed as `ArchivePlace` says, or its error |
| Pointer.WithButtonReadsBack | client/js/graphite.js:548-552 | codes 0, 1 and 2 set the left, middle and right flag, and no other flag; any other code changes nothing |
| Pointer.WithButtonLastWins | client/js/graphite.js:548-552 | setting the same button twice keeps the later value |
| Pointer.ScaledPositionCorners | client/js/graphite.js:539-546 | the displayed corners map to the canvas origin and the canvas size; at natural size the scaled and unscaled positions agree (archive/main.js:572-576) |
| Pointer.Mouse.constructor | client/js/graphite.js:509-520 | at the origin, no button pressed, no scroll |
| Pointer.Mouse.UpdatePosition | client/js/graphite.js:539-546 | the scaled offset into the displayed box; buttons and scroll kept |
| Pointer.Mouse.UpdatePositionUnscaled | archive/main.js:572-576 | the unscaled offset into the displayed box; buttons and scroll kept |
| Pointer.Mouse.SetButtonState | client/js/graphite.js:548-552 | the buttons after `WithButton`; position and scroll kept |
| Pointer.Mouse.ResetButtons | client/js/graphite.js:554-558 | all three buttons released; position and scroll kept |
| Pointer.Mouse.HandleScroll | client/js/graphite.js:560-567 | the scroll delta is the event's; position and buttons kept |
| Pointer.Mouse.ResetScroll | client/js/graphite.js:594-596 | no scroll, so neither scrolling up nor down |
| Pointer.Mouse.IsReleased | client/js/graphite.js:569-577 | `isReleased` is the negation of `isPressed` for every name, inherited names included |
| Pointer.Mouse.GetPosition | client/js/graphite.js:579-582 | the current x and y |
| Pointer.Mouse.IsScrollingUp | client/js/graphite.js:584-592 | scrolling up excludes scrolling down |
| Pointer.Mouse.IsScrollingDown | client/js/graphite.js:589-592 | scrolling down needs a non-zero delta, so it ends with `resetScroll` |
| Pointer.ScrollDirections | client/js/graphite.js:584-592 | a non-zero delta scrolls in exactly one direction, and a zero delta in neither |
| Pointer.Mouse.IsPressed | client/js/graphite.js:569-572 | `left`, `middle` and `right` each read their own flag, an inherited `Object.prototype` name such as `toString` always reads as pressed, and no other name does; the default name is `left` |
| Pointer.ReleasedHasNoPressedButton | client/js/graphite.js:554-558 | after `mouseleave` none of the three buttons reads as pressed; exactly the inherited names still do |
| Keyboard.Lower | client/js/graphite.js:627 | `toLowerCase` keeps the length and lower-cases each ASCII letter |
| Keyboard.LowerIdempotent | client/js/graphite.js:677-689 | lower-casing twice is lower-casing once |
| Keyboard.StepsKeepConsistent | client/js/graphite.js:626-661 | keydown, keyup, reset and frame clearing each keep the held keys equal to the stamped keys |
| Keyboard.KeyDownFresh | client/js/graphite.js:626-642 | a key not held becomes held and just pressed, and is stamped with the time; just-released is unchanged |
| Keyboard.KeyDownRepeat | client/js/graphite.js:626-642 | a repeated keydown changes neither the held keys, nor just-pressed, nor any stamp |
| Keyboard.KeyUpCases | client/js/graphite.js:644-654 | after a keyup the key is not held; a held key becomes just released; an unheld key changes no key collection |
| Keyboard.JustPressedLastsOneFrame | client/js/graphite.js:709-712 | "just pressed" ends at the next `clearFrameStates`, while the key stays held |
| Keyboard.ResetForgetsKeys | client/js/graphite.js:656-661 | after `resetKeys` no key is pressed, just pressed, just released or held; modifiers and caps lock are kept |
| Keyboard.IsHeldAfterPress | client/js/graphite.js:697-701 | after a press at a non-zero time `t`, `isHeld` holds exactly when `now - t >= duration`; a stamp of 0 is falsy and never counts |
| Keyboard.QueriesIgnoreCase | client/js/graphite.js:677-689 | asking for a key in any case gives the same answer |
| Keyboard.KeyDown | client/js/graphite.js:626-642 | after a keydown the key is pressed; just-released is untouched; held keys stay equal to stamped keys |
| Keyboard.KeyUp | client/js/graphite.js:644-654 | after a keyup the key is not pressed; just-pressed is untouched; held keys stay equal to stamped keys |
| Keyboard.IsPressed | client/js/graphite.js:677-679 | asking with the lower-cased name gives the same answer; in a consistent state, pressed exactly when stamped |
| Keyboard.IsJustPressed | client/js/graphite.js:682-684 | asking with the lower-cased name gives the same answer |
| Keyboard.IsJustReleased | client/js/graphite.js:687-689 | asking with the lower-cased name gives the same answer |
| Keyboard.AreKeysPressed | client/js/graphite.js:692-694 | true exactly when every listed key is pressed, so true for no keys |
| Keyboard.IsHeld | client/js/graphite.js:697-701 | a held key is pressed and was stamped at least `duration` before `now` |
| Keyboard.IsHeldShorter | client/js/graphite.js:697-701 | held for a duration implies held for any shorter one; the default duration is 500 |
| Keyboard.ReplayConsistent | client/js/graphite.js:626-712 | after any sequence of inputs, the held keys equal the stamped keys |
| Keyboard.HeldKeysAreStamped | client/js/graphite.js:697-701 | from a fresh `Keyboarder`, every held key has a press time |
| Keyboard.Keyboarder.constructor | client/js/graphite.js:605-618 | empty key collections, no modifiers, caps lock off |
| Keyboard.Keyboarder.HandleKeyDown | client/js/graphite.js:626-642 | the state after `KeyDown`; the default is cancelled exactly for the space bar |
| Keyboard.Keyboarder.HandleKeyUp | client/js/graphite.js:644-654 | the state after `KeyUp` |
| Keyboard.Keyboarder.ResetKeys | client/js/graphite.js:656-661 | the state after `Reset` |
| Keyboard.Keyboarder.UpdateModifiers | client/js/graphite.js:663-668 | only the modifiers change, to the event's four flags |
| Keyboard.Keyboarder.CheckCapsLock | client/js/graphite.js:670-674 | only caps lock changes, and only when the event can report it |
| Keyboard.Keyboarder.ClearFrameStates | client/js/graphite.js:709-712 | the state after `ClearFrame`: only the one-frame sets emptied |
| Keyboard.Keyboarder.AreKeysPressedNow | client/js/graphite.js:692-694 | the `every` loop returns whether every listed key, lower-cased, is held |
| Keyboard.Keyboarder.IsCapsLockOn | client/js/graphite.js:704-706 | the caps-lock flag |
| RoomServer.ConnectAddsClientOnly | resources/js/graphitejs_server_v0.1.0.js:54-61 | the socket becomes a client, and the rooms are unchanged |
| RoomServer.JoinProperties | resources/js/graphitejs_server_v0.1.0.js:116-122 | the socket is added to the room, which is created if missing; other rooms and the clients are unchanged; joining twice is joining once |
| RoomServer.LeaveProperties | resources/js/graphitejs_server_v0.1.0.js:129-134 | no room is ever deleted, even when emptied; the room loses exactly the socket; other rooms and the clients are unchanged; a missing room changes nothing |
| RoomServer.DisconnectProperties | resources/js/graphitejs_server_v0.1.0.js:156-167 | the clients lose exactly the socket; every room loses exactly the socket; no room is left empty; a room survives exactly when it had another member |
| RoomServer.BroadcastExact | resources/js/graphitejs_server_v0.1.0.js:103-109 | the recipients are exactly the open clients other than the sender |
| RoomServer.RoomSendExact | resources/js/graphitejs_server_v0.1.0.js:142-150 | the recipients are exactly the open members of the room, the sender included; a missing room reaches nobody |
| RoomServer.Dispatch | resources/js/graphitejs_server_v0.1.0.js:68-96 | no message changes the clients; only open sockets are sent to; a message that sends changes no state |
| RoomServer.DispatchIgnoresUnknown | resources/js/graphitejs_server_v0.1.0.js:68-96 | unparsable text or an unknown type leaves clients and rooms unchanged and sends nothing |
| RoomServer.DispatchKeepsClients | resources/js/graphitejs_server_v0.1.0.js:68-96 | no message changes the clients; `broadcast` and `sendToRoom` change no state |
| RoomServer.ApplyKeepsMembersConnected | resources/js/graphitejs_server_v0.1.0.js:54-167 | each event keeps every room member a connected client, when messages come from clients |
| RoomServer.RunKeepsMembersConnected | resources/js/graphitejs_server_v0.1.0.js:54-167 | over any run where messages come only from connected sockets, room members stay clients |
| RoomServer.Server.constructor | resources/js/graphitejs_server_v0.1.0.js:14-26 | no clients and no rooms |
| RoomServer.Server.HandleConnection | resources/js/graphitejs_server_v0.1.0.js:54-61 | the state after `Connect` |
| RoomServer.Server.JoinRoom | resources/js/graphitejs_server_v0.1.0.js:116-122 | the state after `Join` |
| RoomServer.Server.LeaveRoom | resources/js/graphitejs_server_v0.1.0.js:129-134 | the state after `Leave` |
| RoomServer.Server.Broadcast | resources/js/graphitejs_server_v0.1.0.js:103-109 | the `forEach` loop sends to exactly `BroadcastRecipients` |
| RoomServer.Server.SendToRoom | resources/js/graphitejs_server_v0.1.0.js:142-150 | the early return and the `forEach` loop send to exactly `RoomRecipients` |
| RoomServer.Server.HandleDisconnect | resources/js/graphitejs_server_v0.1.0.js:156-167 | the `forEach` loop over the rooms ends in the state after `Disconnect` |
| RoomServer.Server.HandleMessage | resources/js/graphitejs_server_v0.1.0.js:68-96 | the state and recipients of `Dispatch` |

## Left out

- Radix.Slice, ArchiveColor.Color.FromHex, ArchiveColor.ParseHex and ArchiveColor.ParseHexOfExtension: slice indices count Unicode scalar values, while JavaScript's `slice` counts UTF-16 code units. The two differ once the text holds a character outside the Basic Multilingual Plane. For example, `"#😀ff00".slice(3, 5)` is `"ff"` in JavaScript, but the model takes `"f0"`.

- Vectors, `pythagoras`, HSL conversion, fonts, clocks, music and sound: these are floating-point maths, timers and audio.
  - The client's `toHSL` calls itself without end.
- Canvas drawing: `Surface.draw`, `SurfaceImage`, and the archive surface's rotation, scale and translation fields. These are host canvas calls.
- The broken archive `Rect` methods: `inflate` writes to the global `self`, `collidePoint` chains `<=`, `collide` calls the undefined `not`, and `clip` always throws. The client draft's versions are modelled.
- The archive `multiply`/`divide`, and the client's colour-operand `multiply(color)`/`divide(color)`, are not modelled. Each is replaced by the later `multiply(scalar)`/`divide(scalar)` of the same class.
- The event-listener wiring, the 150 ms scroll `setTimeout`, `getBoundingClientRect` and `performance.now()`. The values they produce are parameters.
- The networking: the Express server, `start()`, the sockets themselves, the JSON text of each send, and the order of sends. Each send is only a member of a set.
- ClientColor.Color.ToHex: requires whole-number r, g and b; alpha is unconstrained. The radix-16 text JavaScript prints for fractional numbers (`1.8` for 1.5) is not modelled. The same holds for `ToRGB`, and for `ToHexA`, `ToRGBA` and `PaddedHex`, which also need a whole-number alpha.
- ClientColor.Color.Divide: requires a non-zero scalar. JavaScript's Infinity and NaN are not modelled.
- ArchiveColor.Color.constructor: channels are integers or NaN. Omitted arguments are passed as NaN; that gives the same result, since `undefined` is falsy too. Fractional channels and non-number arguments are not modelled.
- Pointer.Mouse.UpdatePosition: requires a non-zero displayed size. The Infinity and NaN of a zero-sized canvas are not modelled.
- Keyboard.Lower: lower-cases ASCII letters only. The Unicode case mapping of `toLowerCase` is not modelled.
- Pointer.Mouse.IsPressed, Pointer.Mouse.IsReleased and Pointer.ReleasedHasNoPressedButton: the inherited names are the `Object.prototype` properties of a standard environment. Properties a page adds to `Object.prototype` are not modelled.
- Keyboard.KeyDown: key names are ordinary map keys. Assigning `lastKeyTime["__proto__"]` in the source changes the object's prototype instead.
- RoomServer.Dispatch: a `payload` is either missing or carries a string `room`. A payload object without `room`, or with a non-string `room`, uses `undefined` or that value as a map key in the source. That case is not modelled.
- ClientSurface.ClientPlace: the value under a key is `null`/`undefined` (a TypeError) or a pair of reals. Another value without `x` or `y`, such as a number, gives `undefined` and NaN coordinates; that is not modelled. Integer-like key names, which JavaScript orders first, are not modelled either.
- ArchiveSurface.ArchivePlace: the same holds for the archive `getRect`. `null`/`undefined` under a valid key is modelled as its TypeError, but a value without `x` or `y` that gives NaN coordinates is not.
- ClientColor.AddThenMinus, ClientColor.MultiplyThenDivide, ClientColor.DecimalReadsBack and every geometry lemma (among them Geometry.ScaledByComposes, Geometry.MovedAnchors, Geometry.MovedTwice, Geometry.MovedContains and Geometry.InflatedKeepsCenter): JavaScript numbers are IEEE doubles, but the client colours and all geometry are modelled as exact reals. The arithmetic in these lemmas holds for reals only.
  - Rounding can break them: in doubles `0.1 + 0.2 - 0.2` is `0.10000000000000003`, and `(1 / 49) * 49` is `0.9999999999999999`.
  - Addition is not associative in doubles: `(0.1 + 0.2) + 0.3` is `0.6000000000000001` but `0.1 + (0.2 + 0.3)` is `0.6`. And `1e-17 + 1` rounds to `1`, so a moved point can change sides of an edge.
  - `toString` prints integers of 1e21 and above in exponent form, which `ChannelDecimal` does not model.
- Geometry.Rect.CollidePoint: the argument is required. The client's default `{ x, y }` reads undefined globals, so a call without an argument throws a ReferenceError there. The other JavaScript default arguments are Dafny default parameters: the `Rect`, `Surface` and `surfaceScale` sizes, `move`/`moveTo`/`inflate`'s zeros, `isPressed`/`isReleased`'s `"left"` and `isHeld`'s 500.

## Findings

| source | as written | input that shows it | evidently intended | confidence | as-written member | corrected member |
|---|---|---|---|---|---|---|
| client/js/graphite.js:429-435 | `inflate` subtracts the amounts from width and height, but moves x and y up-left by half of them, as if growing | box (0, 0, 10, 10) inflated by (2, 2) becomes (-1, -1, 8, 8): the centre moves from (5, 5) to (3, 3) | grow by the amounts about the centre (width += dw, x -= dw / 2). The archive draft's `inflate` also adds the amounts | medium, not executed | Geometry.InflateAsWrittenShiftsCenter | Geometry.InflatedKeepsCenter |
| client/js/graphite.js:446-453 | `collideRect` calls `not(…)`, which is defined nowhere, so every call throws a `ReferenceError` | any two rectangles, e.g. two equal unit squares | `!(…)`: true exactly when the rectangles overlap | high, not executed | Geometry.CollideRectNeverAnswers | Geometry.OverlapsIffCommonInterior |

`Geometry.Rect.Inflate` and `Geometry.Rect.CollideRect` keep the behaviour as written. The
corrected `Geometry.Inflated` and `Geometry.Overlaps` are what the geometry lemmas about
centring and overlap are stated for.

=== FILE: archive_color.dfy ===
/**
 * The `Color` class of the archive draft (archive/main.js). Its channels are integers,
 * or NaN where `fromHex` was given text without hex digits.
 */
module ArchiveColor {
  import opened Common
  import opened Radix
  import ClientColor

  /** A channel value: an integer, or NaN. */
  datatype Channel = Int(n: int) | NaN

  /** A channel that is an integer in 0..255. */
  predicate IsByte(c: Channel) {
    c.Int? && 0 <= c.n <= 255
  }

  /** `value || fallback`: 0 and NaN (and an omitted argument) are falsy. */
  function OrElse(c: Channel, fallback: int): (d: Channel)
    ensures d.Int?
    ensures d != c ==> d == Int(fallback)
    ensures d == c <==> (c.Int? && c.n != 0) || c == Int(fallback)
  {
    if c.Int? && c.n != 0 then c else Int(fallback)
  }

  /** `x + y` on numbers: NaN absorbs. */
  function Plus(x: Channel, y: Channel): Channel {
    if x.Int? && y.Int? then Int(x.n + y.n) else NaN
  }

  /** `x - y` on numbers: NaN absorbs. */
  function Less(x: Channel, y: Channel): Channel {
    if x.Int? && y.Int? then Int(x.n - y.n) else NaN
  }

  /** `x === y` on numbers: NaN equals nothing, itself included. */
  predicate Same(x: Channel, y: Channel) {
    x.Int? && y.Int? && x.n == y.n
  }

  /** `c.toString(16)`. */
  function Text(c: Channel): (t: string)
    ensures 1 <= |t|
  {
    match c
    case NaN => "NaN"
    case Int(n) => IntToString(n, 16)
  }

  /** `"" + c`: the decimal text string concatenation prints, `NaN` for NaN. */
  function Decimal(c: Channel): (t: string)
    ensures ',' !in t
    ensures c.NaN? <==> t == "NaN"
  {
    match c
    case NaN => "NaN"
    case Int(n) => IntToString(n, 10)
  }

  /** On integers the archive's decimal text is the client's. */
  lemma DecimalDraftsAgree(n: int)
    ensures Decimal(Int(n)) == ClientColor.ChannelDecimal(n as real)
  {
    assert (n as real).Floor == n;
  }

  /** Going through the `||` constructor gives back an equal colour exactly when no channel is NaN and alpha is not 0. */
  lemma CloneSameExactly(r: Channel, g: Channel, b: Channel, a: Channel)
    ensures Same(OrElse(r, 0), r) && Same(OrElse(g, 0), g) && Same(OrElse(b, 0), b) && Same(OrElse(a, 255), a)
      <==> r.Int? && g.Int? && b.Int? && a.Int? && a.n != 0
  {
  }

  /** The ternary of `toHex`: a one-character text gets a `0` in front, any other is kept. */
  function Padded(c: Channel): (s: string)
    ensures c.Int? ==> s == PadStart(IntToString(c.n, 16), 2)
    ensures IsByte(c) ==> |s| == 2 && SpellsByte(s, 0, c.n)
  {
    var t := Text(c);
    if IsByte(c) then
      PaddedByte(c.n);
      if |t| == 1 then "0" + t else t
    else if |t| == 1 then "0" + t else t
  }

  /** The archive's ternary padding and the client's padding loop agree on every integer. */
  lemma DraftsPadAlike(n: int)
    ensures Padded(Int(n)) == ClientColor.ChannelHex(n as real)
  {
    assert (n as real).Floor == n;
  }

  /** `toHex` text for the channels r, g, b. */
  function HexText(r: Channel, g: Channel, b: Channel): (s: string)
    ensures IsByte(r) && IsByte(g) && IsByte(b) ==>
      |s| == 7 && s[0] == '#' && SpellsByte(s, 1, r.n) && SpellsByte(s, 3, g.n) && SpellsByte(s, 5, b.n)
  {
    if IsByte(r) && IsByte(g) && IsByte(b) then
      ClientColor.HexCodeSpells(Padded(r), Padded(g), Padded(b), r.n, g.n, b.n);
      "#" + Padded(r) + Padded(g) + Padded(b)
    else "#" + Padded(r) + Padded(g) + Padded(b)
  }

  /** `toHexA` text: the `toHex` text followed by the alpha channel. */
  function HexAText(r: Channel, g: Channel, b: Channel, a: Channel): (s: string)
    ensures HexText(r, g, b) <= s
    ensures IsByte(r) && IsByte(g) && IsByte(b) && IsByte(a) ==>
      |s| == 9 && s[0] == '#' && SpellsByte(s, 1, r.n) && SpellsByte(s, 3, g.n)
      && SpellsByte(s, 5, b.n) && SpellsByte(s, 7, a.n)
  {
    var h := HexText(r, g, b);
    var s := h + Padded(a);
    assert s[..|h|] == h;
    if IsByte(r) && IsByte(g) && IsByte(b) && IsByte(a) then
      ClientColor.SpellsByteBefore(h, 1, r.n, Padded(a));
      ClientColor.SpellsByteBefore(h, 3, g.n, Padded(a));
      ClientColor.SpellsByteBefore(h, 5, b.n, Padded(a));
      ClientColor.SpellsByteAfter(h, Padded(a), a.n);
      s
    else s
  }

  /** `parseInt(text, 16)` as a channel: NaN when there are no digits to read. */
  function ParseChannel(s: string): Channel {
    match ParseInt16(s)
    case Some(v) => Int(v)
    case None => NaN
  }

  /** The r, g, b that `fromHex` reads: characters 1-2, 3-4 and 5-6, each in radix 16. */
  function ParseHex(hex: string): (Channel, Channel, Channel) {
    (ParseChannel(Slice(hex, 1, 3)), ParseChannel(Slice(hex, 3, 5)), ParseChannel(Slice(hex, 5, 7)))
  }

  /** `fromHex` looks at the first seven characters only: anything after them is ignored. */
  lemma ParseHexOfExtension(h: string, s: string)
    requires h <= s && |h| >= 7
    ensures ParseHex(s) == ParseHex(h)
  {
    assert Slice(s, 1, 3) == Slice(h, 1, 3);
    assert Slice(s, 3, 5) == Slice(h, 3, 5);
    assert Slice(s, 5, 7) == Slice(h, 5, 7);
  }

  /** Two characters that spell a byte are read back as that byte. */
  lemma ParseSpelledByte(s: string, i: nat, v: int)
    requires SpellsByte(s, i, v)
    ensures ParseChannel(Slice(s, i, i + 2)) == Int(v)
  {
    var t := Slice(s, i, i + 2);
    assert t == s[i..i + 2];
    assert t[0] == s[i] && t[1] == s[i + 1];
    ParseTwoDigits(t);
  }

  /** `fromHex(toHex())` restores r, g and b for channels in 0..255. */
  lemma {:induction false} HexRoundTrip(r: Channel, g: Channel, b: Channel)
    requires IsByte(r) && IsByte(g) && IsByte(b)
    ensures ParseHex(HexText(r, g, b)) == (r, g, b)
  {
    var s := HexText(r, g, b);
    ParseSpelledByte(s, 1, r.n);
    ParseSpelledByte(s, 3, g.n);
    ParseSpelledByte(s, 5, b.n);
  }

  /** Upper-case digits parse too: `#FF0000` is red. */
  lemma RedParses()
    ensures ParseHex("#FF0000") == (Int(255), Int(0), Int(0))
  {
    var red := "#FF0000";
    assert Slice(red, 1, 3) == "FF" by {
      assert red[1..3] == "FF";
    }
    assert Slice(red, 3, 5) == "00" && Slice(red, 5, 7) == "00" by {
      assert red[3..5] == "00" && red[5..7] == "00";
    }
    ParseTwoDigits("FF");
    ParseTwoDigits("00");
  }

  /** Red prints back in lower case: `#ff0000`. */
  lemma RedPrints()
    ensures HexText(Int(255), Int(0), Int(0)) == "#ff0000"
  {
    assert NatToString(255, 16) == "ff" by {
      assert NatToString(15, 16) == "f";
    }
    assert Padded(Int(255)) == "ff";
    assert Padded(Int(0)) == "00";
  }

  class Color {
    var r: Channel
    var g: Channel
    var b: Channel
    var a: Channel

    /** Each channel falls back with `||`: a zero r, g or b stays 0, but a zero alpha becomes 255. */
    constructor (r: Channel, g: Channel, b: Channel, a: Channel)
      ensures this.r == OrElse(r, 0) && this.g == OrElse(g, 0) && this.b == OrElse(b, 0)
      ensures this.a == OrElse(a, 255)
      ensures a == Int(0) ==> this.a == Int(255)
    {
      this.r, this.g, this.b, this.a := OrElse(r, 0), OrElse(g, 0), OrElse(b, 0), OrElse(a, 255);
    }

    /** `clone`: a new colour made by the `||` constructor, so NaN channels and a zero alpha are not kept. */
    method Clone() returns (c: Color)
      ensures fresh(c)
      ensures c.r == OrElse(r, 0) && c.g == OrElse(g, 0) && c.b == OrElse(b, 0) && c.a == OrElse(a, 255)
      ensures c.Equals(this) <==> r.Int? && g.Int? && b.Int? && a.Int? && a.n != 0
    {
      c := new Color(r, g, b, a);
      CloneSameExactly(r, g, b, a);
    }

    /** `fromHex`: r, g, b read from the text, alpha set to the given value (255 by default). */
    method FromHex(hex: string, alpha: Channel := Int(255))
      modifies this
      ensures (r, g, b) == ParseHex(hex) && a == alpha
    {
      var channels := ParseHex(hex);
      r, g, b, a := channels.0, channels.1, channels.2, alpha;
    }

    function ToHex(): (s: string)
      reads this
      ensures IsByte(r) && IsByte(g) && IsByte(b) ==> ParseHex(s) == (r, g, b)
    {
      if IsByte(r) && IsByte(g) && IsByte(b) then
        HexRoundTrip(r, g, b);
        HexText(r, g, b)
      else HexText(r, g, b)
    }

    function ToHexA(): (s: string)
      reads this
      ensures IsByte(r) && IsByte(g) && IsByte(b) ==> ParseHex(s) == (r, g, b)
    {
      var s := HexAText(r, g, b, a);
      if IsByte(r) && IsByte(g) && IsByte(b) then
        HexRoundTrip(r, g, b);
        ParseHexOfExtension(HexText(r, g, b), s);
        s
      else s
    }

    /** `toRGB`: `rgb(` and the decimal r, g, b, comma-separated, then `)`; NaN prints as `NaN`. */
    function ToRGB(): (s: string)
      reads this
      ensures |s| >= 5 && s[..4] == "rgb(" && s[|s| - 1] == ')'
      ensures ClientColor.SplitOn(s[4..|s| - 1], ',') == [Decimal(r), Decimal(g), Decimal(b)]
    {
      var fields := [Decimal(r), Decimal(g), Decimal(b)];
      var s := "rgb(" + ClientColor.Join(fields, ',') + ")";
      assert s[4..|s| - 1] == ClientColor.Join(fields, ',');
      ClientColor.SplitJoin(fields, ',');
      s
    }

    /** `toRGBA`: `rgba(` and the four decimal channels, comma-separated, then `)`. */
    function ToRGBA(): (s: string)
      reads this
      ensures |s| >= 6 && s[..5] == "rgba(" && s[|s| - 1] == ')'
      ensures ClientColor.SplitOn(s[5..|s| - 1], ',') == [Decimal(r), Decimal(g), Decimal(b), Decimal(a)]
    {
      var fields := [Decimal(r), Decimal(g), Decimal(b), Decimal(a)];
      var s := "rgba(" + ClientColor.Join(fields, ',') + ")";
      assert s[5..|s| - 1] == ClientColor.Join(fields, ',');
      ClientColor.SplitJoin(fields, ',');
      s
    }

    /** `equals`: `===` on all four channels, so a colour with a NaN channel equals nothing. */
    predicate Equals(other: Color)
      reads this, other
      ensures Equals(other) <==> r.Int? && g.Int? && b.Int? && a.Int? && r == other.r && g == other.g && b == other.b && a == other.a
    {
      Same(r, other.r) && Same(g, other.g) && Same(b, other.b) && Same(a, other.a)
    }

    /** `add`: r, g, b summed with the other colour's; alpha untouched; returns this. */
    method Add(other: Color) returns (self: Color)
      modifies this
      ensures self == this
      ensures r == Plus(old(r), old(other.r)) && g == Plus(old(g), old(other.g)) && b == Plus(old(b), old(other.b))
      ensures a == old(a)
    {
      r := Plus(r, other.r);
      g := Plus(g, other.g);
      b := Plus(b, other.b);
      self := this;
    }

    /** `minus`: r, g, b less the other colour's; alpha untouched; returns this. */
    method Minus(other: Color) returns (self: Color)
      modifies this
      ensures self == this
      ensures r == Less(old(r), old(other.r)) && g == Less(old(g), old(other.g)) && b == Less(old(b), old(other.b))
      ensures a == old(a)
    {
      r := Less(r, other.r);
      g := Less(g, other.g);
      b := Less(b, other.b);
      self := this;
    }
  }

  /** A colour equals itself exactly when none of its channels is NaN. */
  lemma EqualsItselfUnlessNaN(c: Color)
    ensures c.Equals(c) <==> c.r != NaN && c.g != NaN && c.b != NaN && c.a != NaN
  {
  }
}

=== FILE: archive_surface.dfy ===
/**
 * The `Surface` class of the archive draft (archive/main.js), reduced to its size and the
 * validated `getRect`, which has its own nine anchor names.
 */
module ArchiveSurface {
  import opened Common
  import opened Geometry
  import ClientSurface

  /** The nine names the archive `getRect` allows, in its own order. */
  const AllowedPositions: seq<string> := [
    "topleft", "topcenter", "topright",
    "middleleft", "center", "middleright",
    "bottomleft", "bottomcenter", "bottomright"
  ]

  function ArchiveAnchor(name: string): Option<Anchor> {
    match name
    case "topleft" => Some(TopLeft)
    case "topcenter" => Some(TopMiddle)
    case "topright" => Some(TopRight)
    case "middleleft" => Some(MiddleLeft)
    case "center" => Some(Middle)
    case "middleright" => Some(MiddleRight)
    case "bottomleft" => Some(BottomLeft)
    case "bottomcenter" => Some(BottomMiddle)
    case "bottomright" => Some(BottomRight)
    case _ => None
  }

  function ArchiveName(a: Anchor): string {
    match a
    case TopLeft => "topleft"
    case TopMiddle => "topcenter"
    case TopRight => "topright"
    case MiddleLeft => "middleleft"
    case Middle => "center"
    case MiddleRight => "middleright"
    case BottomLeft => "bottomleft"
    case BottomMiddle => "bottomcenter"
    case BottomRight => "bottomright"
  }

  /** The allowed list and the `switch` agree: a name is allowed exactly when it names an anchor. */
  lemma ArchiveNamesRoundTrip(a: Anchor, name: string)
    ensures ArchiveAnchor(ArchiveName(a)) == Some(a)
    ensures ArchiveAnchor(name) == Some(a) ==> name == ArchiveName(a)
    ensures name in AllowedPositions <==> ArchiveAnchor(name).Some?
  {
  }

  /**
   * `getRect({...positions})`: the keys of the argument in order, or None for a missing
   * argument (which cannot be spread). Anything but exactly one allowed key throws the
   * "Invalid position" error; the "Too many arguments" check that follows can no longer fire.
   * A validated key whose value is `null` or `undefined` cannot be destructured into `x`, `y`.
   */
  function ArchivePlace(positions: Option<seq<ClientSurface.Entry>>, size: Size): (r: Result<Box>)
    ensures r.Ok? <==>
              positions.Some? && |positions.value| == 1 && ArchiveAnchor(positions.value[0].0).Some?
              && positions.value[0].1.Some?
    ensures r.Ok? ==>
              SizeOf(r.value) == size
              && AnchorPoint(r.value, ArchiveAnchor(positions.value[0].0).value) == positions.value[0].1.value
    ensures positions == None ==> r == Err(TypeError)
    ensures positions.Some? && (|positions.value| != 1 || ArchiveAnchor(positions.value[0].0).None?) ==>
              r == Err(InvalidPosition)
    ensures positions.Some? && |positions.value| == 1 && ArchiveAnchor(positions.value[0].0).Some?
            && positions.value[0].1.None? ==>
              r == Err(TypeError)
  {
    if positions == None then Err(TypeError)
    else
      var keys := positions.value;
      if |keys| != 1 || ArchiveAnchor(keys[0].0) == None then Err(InvalidPosition)
      else if |keys| > 1 then Err(TooManyArguments)
      else if keys[0].1 == None then Err(TypeError)
      else Ok(PlacedAt(ArchiveAnchor(keys[0].0).value, keys[0].1.value, size))
  }

  /**
   * The error for a spread argument is "Invalid position", or the destructuring TypeError of
   * a single allowed key without a point, and never "Too many arguments".
   */
  lemma TooManyArgumentsUnreachable(positions: seq<ClientSurface.Entry>, size: Size)
    ensures ArchivePlace(Some(positions), size) != Err(TooManyArguments)
    ensures ArchivePlace(Some(positions), size).Err? ==>
              ArchivePlace(Some(positions), size).error == InvalidPosition
              || (|positions| == 1 && positions[0].1 == None)
  {
  }

  /** Each allowed name places the rectangle by its anchor. */
  lemma ArchivePlaceByName(a: Anchor, p: Point, size: Size)
    ensures ArchivePlace(Some([(ArchiveName(a), Some(p))]), size) == Ok(PlacedAt(a, p, size))
  {
    ArchiveNamesRoundTrip(a, ArchiveName(a));
  }

  /**
   * The drafts agree where their names agree, and differ elsewhere: the client's `top` is
   * rejected by the archive, and the archive's `topcenter` is a top-left placement for the client.
   * Both throw a TypeError for `null` under `center`.
   */
  lemma DraftsDiffer(p: Point, size: Size)
    ensures ArchivePlace(Some([("center", Some(p))]), size) == ClientSurface.ClientPlace(Some([("center", Some(p))]), size)
    ensures ArchivePlace(Some([("top", Some(p))]), size) == Err(InvalidPosition)
    ensures ClientSurface.ClientPlace(Some([("top", Some(p))]), size) == Ok(PlacedAt(TopMiddle, p, size))
    ensures ClientSurface.ClientPlace(Some([("topcenter", Some(p))]), size) == Ok(PlacedAt(TopLeft, p, size))
    ensures ArchivePlace(Some([("center", None)]), size) == ClientSurface.ClientPlace(Some([("center", None)]), size)
              == Err(TypeError)
  {
  }

  class Surface {
    var width: real
    var height: real

    constructor (size: Size := Size(0.0, 0.0))
      ensures width == size.width && height == size.height
    {
      width, height := size.width, size.height;
    }

    /** `getRect`: a new rectangle placed as `ArchivePlace` says, or the error it throws. */
    method GetRect(positions: Option<seq<ClientSurface.Entry>>) returns (r: Result<Rect>)
      ensures r.Err? <==> ArchivePlace(positions, Size(width, height)).Err?
      ensures r.Err? ==> r.error == ArchivePlace(positions, Size(width, height)).error
      ensures r.Ok? ==> fresh(r.value) && r.value.Value() == ArchivePlace(positions, Size(width, height)).value
    {
      var placed := ArchivePlace(positions, Size(width, height));
      if placed.Err? {
        r := Err(placed.error);
      } else {
        var b := placed.value;
        var rect := new Rect(Point(b.x, b.y), Size(b.width, b.height));
        r := Ok(rect);
      }
    }
  }
}

=== FILE: client_color.dfy ===
/**
 * The `Color` class of the client draft (client/js/graphite.js). Channels are JavaScript
 * numbers, modelled as reals; the text conversions are defined for integral channels.
 */
module ClientColor {
  import opened Radix

  predicate IsIntegral(x: real) {
    x.Floor as real == x
  }

  /** What `_toHex` computes: the radix-16 text of the channel, zero-padded to two characters. */
  function ChannelHex(n: real): string
    requires IsIntegral(n)
  {
    PadStart(IntToString(n.Floor, 16), 2)
  }

  /** The decimal text string concatenation prints for an integral channel. */
  function ChannelDecimal(n: real): (s: string)
    requires IsIntegral(n)
    ensures ',' !in s
  {
    IntToString(n.Floor, 10)
  }

  /** The decimal text of a non-negative integral channel reads back as the channel. */
  lemma DecimalReadsBack(n: real)
    requires IsIntegral(n) && n >= 0.0
    ensures AllDigits(ChannelDecimal(n), 10) && ValueOf(ChannelDecimal(n), 10) == n.Floor
  {
    NatToStringRoundTrip(n.Floor, 10);
  }

  /** `s` cut at every occurrence of `sep`, as `s.split(sep)` does. */
  function SplitOn(s: string, sep: char): (parts: seq<string>)
    ensures |parts| >= 1
  {
    if s == [] then [[]]
    else if s[0] == sep then [[]] + SplitOn(s[1..], sep)
    else
      var rest := SplitOn(s[1..], sep);
      [[s[0]] + rest[0]] + rest[1..]
  }

  /** A piece without the separator comes back whole, before the pieces of what follows it. */
  lemma {:induction false} SplitOnJoin(a: string, sep: char, b: string)
    requires sep !in a
    ensures SplitOn(a + [sep] + b, sep) == [a] + SplitOn(b, sep)
  {
    if a != [] {
      assert (a + [sep] + b)[1..] == a[1..] + [sep] + b;
      SplitOnJoin(a[1..], sep, b);
      assert [a[0]] + a[1..] == a;
    }
  }

  lemma {:induction false} SplitOnWhole(a: string, sep: char)
    requires sep !in a
    ensures SplitOn(a, sep) == [a]
  {
    if a != [] {
      SplitOnWhole(a[1..], sep);
      assert [a[0]] + a[1..] == a;
    }
  }

  /** The pieces with `sep` between them, as string concatenation writes them. */
  function Join(parts: seq<string>, sep: char): string
    requires |parts| >= 1
  {
    if |parts| == 1 then parts[0] else parts[0] + [sep] + Join(parts[1..], sep)
  }

  /** Cutting joined pieces that do not contain the separator gives the pieces back. */
  lemma {:induction false} SplitJoin(parts: seq<string>, sep: char)
    requires |parts| >= 1 && forall i :: 0 <= i < |parts| ==> sep !in parts[i]
    ensures SplitOn(Join(parts, sep), sep) == parts
  {
    if |parts| == 1 {
      SplitOnWhole(parts[0], sep);
    } else {
      SplitOnJoin(parts[0], sep, Join(parts[1..], sep));
      SplitJoin(parts[1..], sep);
    }
  }

  /** Two characters spelling `v` still spell it after text is put before them. */
  lemma SpellsByteAfter(pre: string, s: string, v: int)
    requires |s| == 2 && SpellsByte(s, 0, v)
    ensures SpellsByte(pre + s, |pre|, v)
  {
    var w := pre + s;
    assert w[|pre|] == s[0] && w[|pre| + 1] == s[1];
  }

  /** ... and after text is put after them. */
  lemma SpellsByteBefore(w: string, i: nat, v: int, post: string)
    requires SpellsByte(w, i, v)
    ensures SpellsByte(w + post, i, v)
  {
    assert (w + post)[i] == w[i] && (w + post)[i + 1] == w[i + 1];
  }

  /** `#` and three two-digit texts spell the three bytes at indices 1, 3 and 5. */
  lemma HexCodeSpells(hr: string, hg: string, hb: string, vr: int, vg: int, vb: int)
    requires |hr| == 2 && SpellsByte(hr, 0, vr)
    requires |hg| == 2 && SpellsByte(hg, 0, vg)
    requires |hb| == 2 && SpellsByte(hb, 0, vb)
    ensures |"#" + hr + hg + hb| == 7 && ("#" + hr + hg + hb)[0] == '#'
    ensures SpellsByte("#" + hr + hg + hb, 1, vr)
    ensures SpellsByte("#" + hr + hg + hb, 3, vg)
    ensures SpellsByte("#" + hr + hg + hb, 5, vb)
  {
    SpellsByteAfter("#", hr, vr);
    SpellsByteBefore("#" + hr, 1, vr, hg);
    SpellsByteBefore("#" + hr + hg, 1, vr, hb);
    SpellsByteAfter("#" + hr, hg, vg);
    SpellsByteBefore("#" + hr + hg, 3, vg, hb);
    SpellsByteAfter("#" + hr + hg, hb, vb);
  }

  class Color {
    var r: real
    var g: real
    var b: real
    var a: real

    /** Omitted arguments default to black, fully opaque. */
    constructor (r: real := 0.0, g: real := 0.0, b: real := 0.0, a: real := 255.0)
      ensures this.r == r && this.g == g && this.b == b && this.a == a
    {
      this.r, this.g, this.b, this.a := r, g, b, a;
    }

    method Clone() returns (c: Color)
      ensures fresh(c) && c.Equals(this)
    {
      c := new Color(r, g, b, a);
    }

    /** r, g and b are whole numbers; alpha may be anything. */
    predicate IntegralRGB()
      reads this
    {
      IsIntegral(r) && IsIntegral(g) && IsIntegral(b)
    }

    predicate Integral()
      reads this
    {
      IntegralRGB() && IsIntegral(a)
    }

    /** r, g and b are integers in 0..255. */
    predicate RGBInByteRange()
      reads this
    {
      IntegralRGB() && 0.0 <= r <= 255.0 && 0.0 <= g <= 255.0 && 0.0 <= b <= 255.0
    }

    /** Every channel is an integer in 0..255. */
    predicate InByteRange()
      reads this
    {
      RGBInByteRange() && IsIntegral(a) && 0.0 <= a <= 255.0
    }

    /** `_toHex`: the radix-16 text of `n`, with zeros prefixed until it has two characters. */
    method PaddedHex(n: real) returns (hex: string)
      requires IsIntegral(n)
      ensures hex == ChannelHex(n)
      ensures 0.0 <= n <= 255.0 ==> |hex| == 2 && SpellsByte(hex, 0, n.Floor)
    {
      hex := IntToString(n.Floor, 16);
      ghost var digits := hex;
      while |hex| < 2
        invariant |digits| <= |hex| <= if |digits| < 2 then 2 else |digits|
        invariant hex == Zeros(|hex| - |digits|) + digits
        decreases 2 - |hex|
      {
        hex := "0" + hex;
      }
      if 0.0 <= n <= 255.0 {
        PaddedByte(n.Floor);
      }
    }

    /** `toHex`: `#rrggbb`; alpha is neither read nor written. */
    method ToHex() returns (code: string)
      requires IntegralRGB()
      ensures code == "#" + ChannelHex(r) + ChannelHex(g) + ChannelHex(b)
      ensures RGBInByteRange() ==>
        |code| == 7 && code[0] == '#'
        && SpellsByte(code, 1, r.Floor) && SpellsByte(code, 3, g.Floor) && SpellsByte(code, 5, b.Floor)
    {
      var hr := PaddedHex(r);
      var hg := PaddedHex(g);
      var hb := PaddedHex(b);
      code := "#" + hr + hg + hb;
      if RGBInByteRange() {
        HexCodeSpells(hr, hg, hb, r.Floor, g.Floor, b.Floor);
      }
    }

    /** `toHexA`: `#rrggbbaa`, alpha last. */
    method ToHexA() returns (code: string)
      requires Integral()
      ensures code == "#" + ChannelHex(r) + ChannelHex(g) + ChannelHex(b) + ChannelHex(a)
      ensures InByteRange() ==>
        |code| == 9 && code[0] == '#'
        && SpellsByte(code, 1, r.Floor) && SpellsByte(code, 3, g.Floor)
        && SpellsByte(code, 5, b.Floor) && SpellsByte(code, 7, a.Floor)
    {
      var hr := PaddedHex(r);
      var hg := PaddedHex(g);
      var hb := PaddedHex(b);
      var ha := PaddedHex(a);
      code := "#" + hr + hg + hb + ha;
      if InByteRange() {
        HexCodeSpells(hr, hg, hb, r.Floor, g.Floor, b.Floor);
        SpellsByteBefore("#" + hr + hg + hb, 1, r.Floor, ha);
        SpellsByteBefore("#" + hr + hg + hb, 3, g.Floor, ha);
        SpellsByteBefore("#" + hr + hg + hb, 5, b.Floor, ha);
        SpellsByteAfter("#" + hr + hg + hb, ha, a.Floor);
      }
    }

    /** `toRGB`: `rgb(` and the decimal r, g, b, comma-separated, then `)`; alpha is not read. */
    function ToRGB(): (s: string)
      reads this
      requires IntegralRGB()
      ensures |s| >= 5 && s[..4] == "rgb(" && s[|s| - 1] == ')'
      ensures SplitOn(s[4..|s| - 1], ',') == [ChannelDecimal(r), ChannelDecimal(g), ChannelDecimal(b)]
    {
      var fields := [ChannelDecimal(r), ChannelDecimal(g), ChannelDecimal(b)];
      var s := "rgb(" + Join(fields, ',') + ")";
      assert s[4..|s| - 1] == Join(fields, ',');
      SplitJoin(fields, ',');
      s
    }

    /** `toRGBA`: `rgba(` and the four decimal channels, comma-separated, then `)`. */
    function ToRGBA(): (s: string)
      reads this
      requires Integral()
      ensures |s| >= 6 && s[..5] == "rgba(" && s[|s| - 1] == ')'
      ensures SplitOn(s[5..|s| - 1], ',')
        == [ChannelDecimal(r), ChannelDecimal(g), ChannelDecimal(b), ChannelDecimal(a)]
    {
      var fields := [ChannelDecimal(r), ChannelDecimal(g), ChannelDecimal(b), ChannelDecimal(a)];
      var s := "rgba(" + Join(fields, ',') + ")";
      assert s[5..|s| - 1] == Join(fields, ',');
      SplitJoin(fields, ',');
      s
    }

    /** `equals`: strict equality of all four channels; with no NaN channel, every colour equals itself. */
    predicate Equals(other: Color)
      reads this, other
      ensures this == other ==> Equals(other)
      ensures Equals(other) ==> (IntegralRGB() <==> other.IntegralRGB())
    {
      r == other.r && g == other.g && b == other.b && a == other.a
    }

    /** `add`: adds the other colour's r, g, b; alpha untouched; returns this same object. */
    method Add(other: Color) returns (self: Color)
      modifies this
      ensures self == this
      ensures r == old(r) + old(other.r) && g == old(g) + old(other.g) && b == old(b) + old(other.b)
      ensures a == old(a)
    {
      r := r + other.r;
      g := g + other.g;
      b := b + other.b;
      self := this;
    }

    /** `minus`: subtracts the other colour's r, g, b; alpha untouched; returns this. */
    method Minus(other: Color) returns (self: Color)
      modifies this
      ensures self == this
      ensures r == old(r) - old(other.r) && g == old(g) - old(other.g) && b == old(b) - old(other.b)
      ensures a == old(a)
    {
      r := r - other.r;
      g := g - other.g;
      b := b - other.b;
      self := this;
    }

    /** `multiply` (the scalar definition, which replaces the colour one): scales r, g, b. */
    method Multiply(scalar: real) returns (self: Color)
      modifies this
      ensures self == this
      ensures r == old(r) * scalar && g == old(g) * scalar && b == old(b) * scalar
      ensures a == old(a)
    {
      r := r * scalar;
      g := g * scalar;
      b := b * scalar;
      self := this;
    }

    /** `divide` (the scalar definition, which replaces the colour one): divides r, g, b. */
    method Divide(scalar: real) returns (self: Color)
      requires scalar != 0.0
      modifies this
      ensures self == this
      ensures r == old(r) / scalar && g == old(g) / scalar && b == old(b) / scalar
      ensures a == old(a)
    {
      r := r / scalar;
      g := g / scalar;
      b := b / scalar;
      self := this;
    }
  }

  /** `equals` is an equivalence: reflexive, symmetric and transitive. */
  lemma EqualsIsEquivalence(c: Color, d: Color, e: Color)
    ensures c.Equals(c)
    ensures c.Equals(d) ==> d.Equals(c)
    ensures c.Equals(d) && d.Equals(e) ==> c.Equals(e)
  {
  }

  /** Colours that are `equals` print the same `rgb()` and `rgba()` text. */
  lemma EqualColorsPrintAlike(c: Color, d: Color)
    requires c.Equals(d)
    ensures c.IntegralRGB() ==> c.ToRGB() == d.ToRGB()
    ensures c.Integral() ==> d.Integral() && c.ToRGBA() == d.ToRGBA()
  {
  }

  /** Adding a distinct colour and subtracting it again restores every channel. */
  method AddThenMinus(c: Color, d: Color)
    requires c != d
    modifies c
    ensures c.r == old(c.r) && c.g == old(c.g) && c.b == old(c.b) && c.a == old(c.a)
  {
    var _ := c.Add(d);
    var _ := c.Minus(d);
  }

  /** Multiplying by a non-zero scalar and dividing by it again restores every channel. */
  method MultiplyThenDivide(c: Color, s: real)
    requires s != 0.0
    modifies c
    ensures c.r == old(c.r) && c.g == old(c.g) && c.b == old(c.b) && c.a == old(c.a)
  {
    var _ := c.Multiply(s);
    var _ := c.Divide(s);
  }
}

=== FILE: client_surface.dfy ===
/**
 * The `Surface` class of the client draft (client/js/graphite.js): a size, an optional fill
 * colour, and `getRect`, which places a rectangle of the surface's size by a named anchor.
 * Also the `surfaceScale`/`surfaceScaleBy` helpers.
 */
module ClientSurface {
  import opened Common
  import opened Geometry
  import ClientColor

  /** The anchor names the client `getRect` switches on. */
  function ClientAnchor(name: string): Option<Anchor> {
    match name
    case "topleft" => Some(TopLeft)
    case "top" => Some(TopMiddle)
    case "topright" => Some(TopRight)
    case "left" => Some(MiddleLeft)
    case "center" => Some(Middle)
    case "right" => Some(MiddleRight)
    case "bottomleft" => Some(BottomLeft)
    case "bottom" => Some(BottomMiddle)
    case "bottomright" => Some(BottomRight)
    case _ => None
  }

  /** The client's name of each anchor. */
  function ClientName(a: Anchor): string {
    match a
    case TopLeft => "topleft"
    case TopMiddle => "top"
    case TopRight => "topright"
    case MiddleLeft => "left"
    case Middle => "center"
    case MiddleRight => "right"
    case BottomLeft => "bottomleft"
    case BottomMiddle => "bottom"
    case BottomRight => "bottomright"
  }

  /** Every anchor has exactly one client name, and the names are the only recognised keys. */
  lemma ClientNamesRoundTrip(a: Anchor, name: string)
    ensures ClientAnchor(ClientName(a)) == Some(a)
    ensures ClientAnchor(name) == Some(a) ==> name == ClientName(a)
  {
  }

  /** One property of a `getRect` argument: its name, and its point or None for `null`/`undefined`. */
  type Entry = (string, Option<Point>)

  /**
   * `getRect(position)`: the keys of the argument object in order, each with its value, or
   * None for a missing argument. Only the first key is read; a name the `switch` does not
   * know leaves the point as the top-left corner. No argument, an object with no keys, or
   * `null`/`undefined` under the first key makes the read of `.x` throw.
   */
  function ClientPlace(position: Option<seq<Entry>>, size: Size): (r: Result<Box>)
    ensures r.Err? <==> position == None || position.value == [] || position.value[0].1 == None
    ensures r.Err? ==> r.error == TypeError
    ensures r.Ok? ==> SizeOf(r.value) == size
  {
    if position == None || position.value == [] || position.value[0].1 == None then Err(TypeError)
    else
      var point, coordinate := position.value[0].0, position.value[0].1.value;
      match ClientAnchor(point)
      case Some(a) => Ok(PlacedAt(a, coordinate, size))
      case None => Ok(Box(coordinate.x, coordinate.y, size.width, size.height))
  }

  /** For each of the nine names, the named anchor of the rectangle is the given point. */
  lemma ClientPlaceByName(a: Anchor, p: Point, size: Size)
    ensures ClientPlace(Some([(ClientName(a), Some(p))]), size).Ok?
    ensures AnchorPoint(ClientPlace(Some([(ClientName(a), Some(p))]), size).value, a) == p
  {
    ClientNamesRoundTrip(a, ClientName(a));
  }

  /** Keys after the first are ignored, and an unknown first key places the top-left corner. */
  lemma {:induction false} ClientPlaceFirstKeyOnly(entries: seq<Entry>, size: Size)
    requires entries != []
    ensures ClientPlace(Some(entries), size) == ClientPlace(Some([entries[0]]), size)
    ensures ClientAnchor(entries[0].0) == None && entries[0].1.Some? ==>
      ClientPlace(Some(entries), size) == Ok(PlacedAt(TopLeft, entries[0].1.value, size))
  {
    assert [entries[0]][0] == entries[0];
  }

  /** What `fill` is called with: nothing, `null`, or a colour. */
  datatype FillArgument = Omitted | Null | Given(color: ClientColor.Color)

  class Surface {
    var width: real
    var height: real
    var fillColor: ClientColor.Color?

    /** A new surface is filled with opaque black. */
    constructor (size: Size := Size(0.0, 0.0))
      ensures width == size.width && height == size.height
      ensures fillColor != null && fresh(fillColor)
      ensures fillColor.r == 0.0 && fillColor.g == 0.0 && fillColor.b == 0.0 && fillColor.a == 255.0
    {
      width, height := size.width, size.height;
      fillColor := new ClientColor.Color();
    }

    /**
     * `fill`: `null` clears the fill colour, a colour is copied into a new one. With no argument
     * the default expression calls the class `Color` without `new`, which throws.
     */
    method Fill(arg: FillArgument) returns (outcome: Result<()>)
      modifies this
      ensures width == old(width) && height == old(height)
      ensures arg.Omitted? ==> outcome == Err(TypeError) && fillColor == old(fillColor)
      ensures arg.Null? ==> outcome == Ok(()) && fillColor == null
      ensures arg.Given? ==>
                outcome == Ok(()) && fillColor != null && fresh(fillColor) && fillColor.Equals(arg.color)
    {
      match arg
      case Omitted =>
        outcome := Err(TypeError);
      case Null =>
        fillColor := null;
        outcome := Ok(());
      case Given(color) =>
        fillColor := new ClientColor.Color(color.r, color.g, color.b, color.a);
        outcome := Ok(());
    }

    /** `unfill`: no fill colour. */
    method Unfill()
      modifies this
      ensures fillColor == null && width == old(width) && height == old(height)
    {
      fillColor := null;
    }

    /** `getRect`: a new rectangle placed as `ClientPlace` says, or the exception it raises. */
    method GetRect(position: Option<seq<Entry>>) returns (r: Result<Rect>)
      ensures r.Err? <==> ClientPlace(position, Size(width, height)).Err?
      ensures r.Err? ==> r.error == ClientPlace(position, Size(width, height)).error
      ensures r.Ok? ==> fresh(r.value) && r.value.Value() == ClientPlace(position, Size(width, height)).value
    {
      var placed := ClientPlace(position, Size(width, height));
      if placed.Err? {
        r := Err(placed.error);
      } else {
        var b := placed.value;
        var rect := new Rect(Point(b.x, b.y), Size(b.width, b.height));
        r := Ok(rect);
      }
    }
  }

  /** `surfaceScale`: the surface takes the given size; its fill is untouched. */
  method SurfaceScale(surface: Surface, size: Size := Size(0.0, 0.0))
    modifies surface
    ensures surface.width == size.width && surface.height == size.height
    ensures surface.fillColor == old(surface.fillColor)
  {
    surface.width := size.width;
    surface.height := size.height;
  }

  /** `surfaceScaleBy`: both dimensions multiplied by the factor; the fill is untouched. */
  method SurfaceScaleBy(surface: Surface, k: real)
    modifies surface
    ensures surface.width == old(surface.width) * k && surface.height == old(surface.height) * k
    ensures surface.fillColor == old(surface.fillColor)
  {
    surface.width := surface.width * k;
    surface.height := surface.height * k;
  }
}

=== FILE: common.dfy ===
/** Optional values and failures shared by the other modules. */
module Common {

  /** A value that may be absent: JavaScript's `undefined`, or NaN from a failed parse. */
  datatype Option<+T> = None | Some(value: T)

  /** The exceptions the modelled code can raise. */
  datatype JsError =
    | TypeError        // property read on `undefined`/`null`, or a class called without `new`
    | ReferenceError   // call of an identifier that is not defined
    | InvalidPosition  // the archive `getRect` validation error
    | TooManyArguments // the archive `getRect` second validation error

  /** The outcome of an operation that either returns a value or throws. */
  datatype Result<+T> = Ok(value: T) | Err(error: JsError)
}

=== FILE: geometry.dfy ===
/**
 * Axis-aligned rectangles: the `Rect` class of both drafts, the anchors that `getRect`
 * places a surface by, and the `rectScale`/`rectScaleBy` helpers of the client draft.
 * Coordinates are exact reals; y grows downwards, so "top" is the smaller y.
 */
module Geometry {
  import opened Common

  datatype Point = Point(x: real, y: real)

  datatype Size = Size(width: real, height: real)

  /** The value of a `Rect`: its top-left corner and its (possibly negative) size. */
  datatype Box = Box(x: real, y: real, width: real, height: real)

  function Left(b: Box): real { b.x }
  function Top(b: Box): real { b.y }
  function Right(b: Box): real { b.x + b.width }
  function Bottom(b: Box): real { b.y + b.height }

  function SizeOf(b: Box): Size { Size(b.width, b.height) }

  // ---------------------------------------------------------------------------
  // Anchors
  // ---------------------------------------------------------------------------

  /** The nine points of a rectangle a surface can be placed by. */
  datatype Anchor =
    | TopLeft | TopMiddle | TopRight
    | MiddleLeft | Middle | MiddleRight
    | BottomLeft | BottomMiddle | BottomRight

  /** How far across the width an anchor sits: 0, one half or all of it. */
  function Across(a: Anchor): real {
    match a
    case TopLeft | MiddleLeft | BottomLeft => 0.0
    case TopMiddle | Middle | BottomMiddle => 0.5
    case TopRight | MiddleRight | BottomRight => 1.0
  }

  /** How far down the height an anchor sits: 0, one half or all of it. */
  function Down(a: Anchor): real {
    match a
    case TopLeft | TopMiddle | TopRight => 0.0
    case MiddleLeft | Middle | MiddleRight => 0.5
    case BottomLeft | BottomMiddle | BottomRight => 1.0
  }

  /** The point of `b` that anchor `a` names. */
  function AnchorPoint(b: Box, a: Anchor): Point {
    Point(b.x + Across(a) * b.width, b.y + Down(a) * b.height)
  }

  /**
   * The rectangle of size `s` whose anchor `a` is at `p`: the `switch` of `getRect`, one
   * case per anchor, each subtracting none, half or all of the width and of the height.
   */
  function PlacedAt(a: Anchor, p: Point, s: Size): (b: Box)
    ensures AnchorPoint(b, a) == p
    ensures SizeOf(b) == s
  {
    var w, h := s.width, s.height;
    match a
    case TopLeft => Box(p.x, p.y, w, h)
    case TopMiddle => Box(p.x - w / 2.0, p.y, w, h)
    case TopRight => Box(p.x - w, p.y, w, h)
    case MiddleLeft => Box(p.x, p.y - h / 2.0, w, h)
    case Middle => Box(p.x - w / 2.0, p.y - h / 2.0, w, h)
    case MiddleRight => Box(p.x - w, p.y - h / 2.0, w, h)
    case BottomLeft => Box(p.x, p.y - h, w, h)
    case BottomMiddle => Box(p.x - w / 2.0, p.y - h, w, h)
    case BottomRight => Box(p.x - w, p.y - h, w, h)
  }

  /** A rectangle is fixed by its size and where one of its anchors is: placement is the only one. */
  lemma PlacedAtUnique(a: Anchor, b: Box)
    ensures PlacedAt(a, AnchorPoint(b, a), SizeOf(b)) == b
  {
    var c := PlacedAt(a, AnchorPoint(b, a), SizeOf(b));
    assert c.x + Across(a) * c.width == b.x + Across(a) * b.width;
    assert c.y + Down(a) * c.height == b.y + Down(a) * b.height;
  }

  /** The corner and edge anchors agree with the edge getters. */
  lemma AnchorsOnEdges(b: Box)
    ensures AnchorPoint(b, TopLeft) == Point(Left(b), Top(b))
    ensures AnchorPoint(b, BottomRight) == Point(Right(b), Bottom(b))
    ensures AnchorPoint(b, TopRight) == Point(Right(b), Top(b))
    ensures AnchorPoint(b, BottomLeft) == Point(Left(b), Bottom(b))
  {
  }

  // ---------------------------------------------------------------------------
  // Collisions
  // ---------------------------------------------------------------------------

  /** `collidePoint`: inside or on any of the four edges. */
  predicate ContainsPoint(b: Box, p: Point) {
    b.x <= p.x && p.x <= b.x + b.width && b.y <= p.y && p.y <= b.y + b.height
  }

  /** The expression `collideRect` negates: one rectangle lies wholly to one side of the other. */
  predicate Separated(b: Box, c: Box) {
    b.x >= c.x + c.width || b.x + b.width <= c.x || b.y >= c.y + c.height || b.y + b.height <= c.y
  }

  /** Strictly inside: not on an edge. */
  predicate Interior(b: Box, p: Point) {
    b.x < p.x < b.x + b.width && b.y < p.y < b.y + b.height
  }

  /** What `collideRect` evidently means: the rectangles are not separated. */
  predicate Overlaps(b: Box, c: Box) {
    !Separated(b, c)
  }

  function Min(u: real, v: real): real { if u <= v then u else v }
  function Max(u: real, v: real): real { if u <= v then v else u }

  /** Rectangles with positive sizes overlap exactly when some point is strictly inside both. */
  lemma OverlapsIffCommonInterior(b: Box, c: Box)
    requires b.width > 0.0 && b.height > 0.0 && c.width > 0.0 && c.height > 0.0
    ensures Overlaps(b, c) <==> exists p :: Interior(b, p) && Interior(c, p)
  {
    if Overlaps(b, c) {
      var x := (Max(b.x, c.x) + Min(Right(b), Right(c))) / 2.0;
      var y := (Max(b.y, c.y) + Min(Bottom(b), Bottom(c))) / 2.0;
      assert Interior(b, Point(x, y)) && Interior(c, Point(x, y));
    }
    if exists p :: Interior(b, p) && Interior(c, p) {
      var p :| Interior(b, p) && Interior(c, p);
      assert !Separated(b, c);
    }
  }

  /** Rectangles that only share an edge do not overlap; yet each contains the shared edge's points. */
  lemma TouchingIsSeparated(b: Box, c: Box)
    requires c.x == Right(b) && c.y == b.y && b.width >= 0.0 && b.height >= 0.0 && c.width >= 0.0 && c.height == b.height
    ensures Separated(b, c) && Separated(c, b)
    ensures ContainsPoint(b, Point(c.x, c.y)) && ContainsPoint(c, Point(c.x, c.y))
  {
  }

  /** Separation does not depend on the order of the two rectangles. */
  lemma SeparatedSymmetric(b: Box, c: Box)
    ensures Separated(b, c) <==> Separated(c, b)
  {
  }

  /** The client `collideRect` as written: it calls `not`, which is defined nowhere, so it always throws. */
  function CollideRectAsWritten(b: Box, c: Box): Result<bool> {
    Err(ReferenceError)
  }

  /** No pair of rectangles gets an answer from the client `collideRect`, overlapping or not. */
  lemma CollideRectNeverAnswers(b: Box, c: Box)
    ensures CollideRectAsWritten(b, c) != Ok(Overlaps(b, c))
    ensures CollideRectAsWritten(b, c).Err?
  {
  }

  // ---------------------------------------------------------------------------
  // Moving, inflating, normalising, scaling
  // ---------------------------------------------------------------------------

  /** `move`: the offsets added to the corner; the size unchanged. */
  function Moved(b: Box, dx: real, dy: real): Box {
    Box(b.x + dx, b.y + dy, b.width, b.height)
  }

  /** `moveTo`: the corner replaced; the size unchanged. */
  function MovedTo(b: Box, p: Point): Box {
    Box(p.x, p.y, b.width, b.height)
  }

  /** Moving keeps the size, moves every anchor by the offset, and is undone by the opposite move. */
  lemma MovedAnchors(b: Box, dx: real, dy: real, a: Anchor)
    ensures SizeOf(Moved(b, dx, dy)) == SizeOf(b)
    ensures AnchorPoint(Moved(b, dx, dy), a) == Point(AnchorPoint(b, a).x + dx, AnchorPoint(b, a).y + dy)
    ensures Moved(Moved(b, dx, dy), -dx, -dy) == b
  {
  }

  /** Moving twice is moving once by the summed offsets. */
  lemma MovedTwice(b: Box, dx1: real, dy1: real, dx2: real, dy2: real)
    ensures Moved(Moved(b, dx1, dy1), dx2, dy2) == Moved(b, dx1 + dx2, dy1 + dy2)
  {
  }

  /** A point moved along with a rectangle stays inside it (or outside). */
  lemma MovedContains(b: Box, p: Point, dx: real, dy: real)
    ensures ContainsPoint(Moved(b, dx, dy), Point(p.x + dx, p.y + dy)) <==> ContainsPoint(b, p)
  {
  }

  /** `moveTo` puts the top-left anchor at the point and keeps the size. */
  lemma MovedToAnchor(b: Box, p: Point)
    ensures AnchorPoint(MovedTo(b, p), TopLeft) == p && SizeOf(MovedTo(b, p)) == SizeOf(b)
    ensures MovedTo(b, p) == PlacedAt(TopLeft, p, SizeOf(b))
  {
  }

  function Center(b: Box): Point {
    Point(b.x + b.width / 2.0, b.y + b.height / 2.0)
  }

  /** The centre is the `center` anchor, and lies between the edges when the size is not negative. */
  lemma CenterBetweenEdges(b: Box)
    ensures Center(b) == AnchorPoint(b, Middle)
    ensures b.width >= 0.0 ==> Left(b) <= Center(b).x <= Right(b)
    ensures b.height >= 0.0 ==> Top(b) <= Center(b).y <= Bottom(b)
  {
  }

  /**
   * A rectangle contains its own centre exactly when its size is not negative: a negative width
   * or height leaves no point inside at all.
   */
  lemma CenterInside(b: Box)
    ensures b.width >= 0.0 && b.height >= 0.0 ==> ContainsPoint(b, Center(b))
    ensures b.width < 0.0 || b.height < 0.0 ==> !ContainsPoint(b, Center(b))
  {
    CenterBetweenEdges(b);
  }

  /** The client `inflate` as written: the size shrinks by the amounts, the corner moves up-left by half. */
  function InflatedAsWritten(b: Box, dw: real, dh: real): Box {
    Box(b.x - dw / 2.0, b.y - dh / 2.0, b.width - dw, b.height - dh)
  }

  /** As written, `inflate` moves the centre by the full amounts: it is kept only when nothing changes. */
  lemma InflateAsWrittenShiftsCenter(b: Box, dw: real, dh: real)
    ensures Center(InflatedAsWritten(b, dw, dh)) == Point(Center(b).x - dw, Center(b).y - dh)
    ensures Center(InflatedAsWritten(b, dw, dh)) == Center(b) <==> dw == 0.0 && dh == 0.0
  {
    var c := InflatedAsWritten(b, dw, dh);
    assert Center(c).x == Center(b).x - dw;
    assert Center(c).y == Center(b).y - dh;
  }

  /** Growing by `dw`, `dh` about the centre: half of each amount on either side. */
  function Inflated(b: Box, dw: real, dh: real): Box {
    Box(b.x - dw / 2.0, b.y - dh / 2.0, b.width + dw, b.height + dh)
  }

  /** Inflating keeps the centre, grows the size by the amounts, and is undone by the opposite amounts. */
  lemma InflatedKeepsCenter(b: Box, dw: real, dh: real)
    ensures Center(Inflated(b, dw, dh)) == Center(b)
    ensures SizeOf(Inflated(b, dw, dh)) == Size(b.width + dw, b.height + dh)
    ensures Inflated(Inflated(b, dw, dh), -dw, -dh) == b
  {
    var c := Inflated(b, dw, dh);
    assert c.x + c.width / 2.0 == b.x + b.width / 2.0;
    assert c.y + c.height / 2.0 == b.y + b.height / 2.0;
  }

  /** `normalize`: a negative width or height becomes 0. */
  function Normalized(b: Box): (n: Box)
    ensures n.x == b.x && n.y == b.y
    ensures n.width == Max(b.width, 0.0) && n.height == Max(b.height, 0.0)
  {
    Box(b.x, b.y, if b.width < 0.0 then 0.0 else b.width, if b.height < 0.0 then 0.0 else b.height)
  }

  /** Normalising leaves a non-negative size alone, always yields one, and so is idempotent. */
  lemma NormalizedIdempotent(b: Box)
    ensures Normalized(b).width >= 0.0 && Normalized(b).height >= 0.0
    ensures b.width >= 0.0 && b.height >= 0.0 ==> Normalized(b) == b
    ensures Normalized(Normalized(b)) == Normalized(b)
  {
  }

  /** `rectScale`: the width and height replaced; the corner unchanged. */
  function Resized(b: Box, width: real, height: real): Box {
    Box(b.x, b.y, width, height)
  }

  /** `rectScaleBy`: the width and height multiplied by the factor; the corner unchanged. */
  function ScaledBy(b: Box, k: real): Box {
    Box(b.x, b.y, b.width * k, b.height * k)
  }

  /** Scaling twice multiplies the factors; a non-zero factor is undone by its reciprocal. */
  lemma ScaledByComposes(b: Box, k1: real, k2: real)
    ensures ScaledBy(ScaledBy(b, k1), k2) == ScaledBy(b, k1 * k2)
    ensures k1 != 0.0 ==> ScaledBy(ScaledBy(b, k1), 1.0 / k1) == b
  {
    assert b.width * k1 * k2 == b.width * (k1 * k2);
    assert b.height * k1 * k2 == b.height * (k1 * k2);
    if k1 != 0.0 {
      assert b.width * k1 * (1.0 / k1) == b.width;
      assert b.height * k1 * (1.0 / k1) == b.height;
    }
  }

  /** A rectangle: a top-left corner and a size, both changed in place. */
  class Rect {
    var x: real
    var y: real
    var width: real
    var height: real

    function Value(): Box
      reads this
    {
      Box(x, y, width, height)
    }

    /** Omitted arguments default to the origin and a zero size. */
    constructor (position: Point := Point(0.0, 0.0), size: Size := Size(0.0, 0.0))
      ensures Value() == Box(position.x, position.y, size.width, size.height)
    {
      x, y, width, height := position.x, position.y, size.width, size.height;
    }

    /** `move`: adds the offsets to the corner. */
    method Move(dx: real := 0.0, dy: real := 0.0)
      modifies this
      ensures Value() == Moved(old(Value()), dx, dy)
    {
      x := x + dx;
      y := y + dy;
    }

    /** `moveTo`: the corner becomes the point. */
    method MoveTo(p: Point := Point(0.0, 0.0))
      modifies this
      ensures Value() == MovedTo(old(Value()), p)
    {
      x := p.x;
      y := p.y;
    }

    /** `inflate` in the client draft, as written. */
    method Inflate(dw: real := 0.0, dh: real := 0.0)
      modifies this
      ensures Value() == InflatedAsWritten(old(Value()), dw, dh)
    {
      width := width - dw;
      height := height - dh;
      x := x - dw / 2.0;
      y := y - dh / 2.0;
    }

    /** `collidePoint` in the client draft: inclusive on all four edges. */
    predicate CollidePoint(p: Point)
      reads this
      ensures CollidePoint(p) <==> ContainsPoint(Value(), p)
      ensures CollidePoint(p) <==>
        Left(Value()) <= p.x <= Right(Value()) && Top(Value()) <= p.y <= Bottom(Value())
    {
      ContainsPoint(Value(), p)
    }

    /** `collideRect` in the client draft: the call of the undefined `not` throws. */
    function CollideRect(other: Rect): (r: Result<bool>)
      reads this, other
      ensures r == CollideRectAsWritten(Value(), other.Value())
    {
      Err(ReferenceError)
    }

    /** `normalize` in the archive draft. */
    method Normalize()
      modifies this
      ensures Value() == Normalized(old(Value()))
    {
      if width < 0.0 {
        width := 0.0;
      }
      if height < 0.0 {
        height := 0.0;
      }
    }

    /** `copy` in the archive draft: a new, equal rectangle that shares nothing with this one. */
    method Copy() returns (c: Rect)
      ensures fresh(c) && c.Value() == Value()
    {
      c := new Rect(Point(x, y), Size(width, height));
    }

    function CenterPoint(): (c: Point)
      reads this
      ensures c == AnchorPoint(Value(), Middle)
    {
      Point(x + width / 2.0, y + height / 2.0)
    }

    function GetSize(): (s: Size)
      reads this
      ensures s == SizeOf(Value())
    {
      Size(width, height)
    }

    function GetTop(): (t: real)
      reads this
      ensures t == AnchorPoint(Value(), TopLeft).y
    {
      y
    }

    function GetRight(): (r: real)
      reads this
      ensures r == AnchorPoint(Value(), BottomRight).x
    {
      x + width
    }

    function GetBottom(): (bottom: real)
      reads this
      ensures bottom == AnchorPoint(Value(), BottomRight).y
    {
      y + height
    }

    function GetLeft(): (l: real)
      reads this
      ensures l == AnchorPoint(Value(), TopLeft).x
    {
      x
    }
  }

  /** `rectScale`: sets the rectangle's width and height from the `x` and `y` of the argument. */
  method RectScale(rect: Rect, size: Point := Point(0.0, 0.0))
    modifies rect
    ensures rect.Value() == Resized(old(rect.Value()), size.x, size.y)
  {
    rect.width := size.x;
    rect.height := size.y;
  }

  /** `rectScaleBy`: multiplies the rectangle's width and height by the factor. */
  method RectScaleBy(rect: Rect, k: real)
    modifies rect
    ensures rect.Value() == ScaledBy(old(rect.Value()), k)
  {
    rect.width := rect.width * k;
    rect.height := rect.height * k;
  }

  /** Moving a copy leaves the original where it was. */
  method MoveCopy(r: Rect, dx: real, dy: real) returns (c: Rect)
    ensures fresh(c) && c.Value() == Moved(r.Value(), dx, dy)
  {
    c := r.Copy();
    c.Move(dx, dy);
  }
}

=== FILE: keyboard.dfy ===
/**
 * The `Keyboarder` class of both drafts: an edge-triggered key-state machine. Keys held
 * down, keys pressed and released since the last frame, and the time each held key went
 * down. The clock (`performance.now()`) is a parameter.
 */
module Keyboard {
  import opened Common

  /** ASCII lower-casing of one character. */
  function LowerChar(c: char): char {
    if 'A' <= c <= 'Z' then (c as int - 'A' as int + 'a' as int) as char else c
  }

  /** `toLowerCase` on ASCII text; every other character is kept. */
  function Lower(s: string): (t: string)
    ensures |t| == |s| && forall i :: 0 <= i < |s| ==> t[i] == LowerChar(s[i])
  {
    seq(|s|, i requires 0 <= i < |s| => LowerChar(s[i]))
  }

  /** Lower-casing twice is lower-casing once. */
  lemma LowerIdempotent(s: string)
    ensures Lower(Lower(s)) == Lower(s)
  {
    assert forall i :: 0 <= i < |s| ==> LowerChar(LowerChar(s[i])) == LowerChar(s[i]);
  }

  /** The fields of a keyboard event the handlers read. */
  datatype KeyEvent = KeyEvent(
    key: string,
    shiftKey: bool, ctrlKey: bool, altKey: bool, metaKey: bool,
    capsLock: Option<bool>) // `getModifierState("CapsLock")`, or None where the event lacks it

  datatype Modifiers = Modifiers(shift: bool, ctrl: bool, alt: bool, meta: bool)

  const NoModifiers := Modifiers(false, false, false, false)

  /** Keys whose default browser action `keydown` cancels: only the space bar. */
  const PreventDefaultKeys: set<string> := {" "}

  /** Everything a `Keyboarder` holds. */
  datatype KeyState = KeyState(
    keys: set<string>,
    justPressed: set<string>,
    justReleased: set<string>,
    lastKeyTime: map<string, real>,
    modifiers: Modifiers,
    capsLock: bool)

  const Initial := KeyState({}, {}, {}, map[], NoModifiers, false)

  /** The invariant: a key is held exactly when it has a press time. */
  predicate Consistent(s: KeyState) {
    s.keys == s.lastKeyTime.Keys
  }

  /** `updateModifiers`: the four flags copied from the event. */
  function ModifiersOf(e: KeyEvent): Modifiers {
    Modifiers(e.shiftKey, e.ctrlKey, e.altKey, e.metaKey)
  }

  /** `checkCapsLock`: the caps-lock flag taken from the event when the event can tell. */
  function CapsLockAfter(s: KeyState, e: KeyEvent): bool {
    if e.capsLock.Some? then e.capsLock.value else s.capsLock
  }

  /**
   * `handleKeyDown` at time `now`: a key not yet held is marked just pressed and stamped;
   * then it is held, and the modifiers and caps lock follow the event.
   */
  function KeyDown(s: KeyState, e: KeyEvent, now: real): (r: KeyState)
    ensures IsPressed(r, e.key) && r.justReleased == s.justReleased
    ensures Consistent(s) ==> Consistent(r)
  {
    var k := Lower(e.key);
    var isNew := k !in s.keys;
    KeyState(
      s.keys + {k},
      if isNew then s.justPressed + {k} else s.justPressed,
      s.justReleased,
      if isNew then s.lastKeyTime[k := now] else s.lastKeyTime,
      ModifiersOf(e),
      CapsLockAfter(s, e))
  }

  /**
   * `handleKeyUp`: a held key is marked just released and loses its stamp; then it is no
   * longer held, and the modifiers follow the event (caps lock is not re-read).
   */
  function KeyUp(s: KeyState, e: KeyEvent): (r: KeyState)
    ensures !IsPressed(r, e.key) && r.justPressed == s.justPressed
    ensures Consistent(s) ==> Consistent(r)
  {
    var k := Lower(e.key);
    var held := k in s.keys;
    KeyState(
      s.keys - {k},
      s.justPressed,
      if held then s.justReleased + {k} else s.justReleased,
      if held then s.lastKeyTime - {k} else s.lastKeyTime,
      ModifiersOf(e),
      s.capsLock)
  }

  /** `resetKeys`, on `blur`: all four key collections emptied; modifiers and caps lock kept. */
  function Reset(s: KeyState): KeyState {
    s.(keys := {}, justPressed := {}, justReleased := {}, lastKeyTime := map[])
  }

  /** `clearFrameStates`: the one-frame sets emptied; nothing else touched. */
  function ClearFrame(s: KeyState): KeyState {
    s.(justPressed := {}, justReleased := {})
  }

  /** `isPressed`: the key, in any case, is held; in a consistent state it then has a press time. */
  predicate IsPressed(s: KeyState, key: string)
    ensures IsPressed(s, key) <==> Lower(Lower(key)) in s.keys
    ensures Consistent(s) ==> (IsPressed(s, key) <==> Lower(key) in s.lastKeyTime)
  {
    LowerIdempotent(key);
    Lower(key) in s.keys
  }

  /** `isJustPressed`: the key, in any case, went down since the frame was last cleared. */
  predicate IsJustPressed(s: KeyState, key: string)
    ensures IsJustPressed(s, key) <==> Lower(Lower(key)) in s.justPressed
  {
    LowerIdempotent(key);
    Lower(key) in s.justPressed
  }

  /** `isJustReleased`: the key, in any case, went up since the frame was last cleared. */
  predicate IsJustReleased(s: KeyState, key: string)
    ensures IsJustReleased(s, key) <==> Lower(Lower(key)) in s.justReleased
  {
    LowerIdempotent(key);
    Lower(key) in s.justReleased
  }

  /** `areKeysPressed`: every listed key is held (true for an empty list). */
  predicate AreKeysPressed(s: KeyState, keys: seq<string>)
    ensures AreKeysPressed(s, keys) <==> forall k :: k in keys ==> IsPressed(s, k)
    ensures keys == [] ==> AreKeysPressed(s, keys)
  {
    assert forall i :: 0 <= i < |keys| ==> (IsPressed(s, keys[i]) <==> Lower(keys[i]) in s.keys);
    assert forall k :: k in keys ==> exists i :: 0 <= i < |keys| && keys[i] == k;
    forall i :: 0 <= i < |keys| ==> Lower(keys[i]) in s.keys
  }

  /**
   * `isHeld` at time `now`: held, with a truthy stamp (present and not 0), for at least
   * `duration` milliseconds (500 when not given).
   */
  predicate IsHeld(s: KeyState, key: string, now: real, duration: real := 500.0)
    ensures IsHeld(s, key, now, duration) ==> IsPressed(s, key) && Lower(key) in s.lastKeyTime
    ensures IsHeld(s, key, now, duration) ==> s.lastKeyTime[Lower(key)] <= now - duration
  {
    var k := Lower(key);
    LowerIdempotent(key);
    k in s.keys && k in s.lastKeyTime && s.lastKeyTime[k] != 0.0 && now - s.lastKeyTime[k] >= duration
  }

  /** Every handler keeps the held keys and the stamped keys equal. */
  lemma StepsKeepConsistent(s: KeyState, e: KeyEvent, now: real)
    requires Consistent(s)
    ensures Consistent(KeyDown(s, e, now)) && Consistent(KeyUp(s, e))
    ensures Consistent(Reset(s)) && Consistent(ClearFrame(s))
  {
    var k := Lower(e.key);
    if k !in s.keys {
      assert KeyDown(s, e, now).lastKeyTime.Keys == s.lastKeyTime.Keys + {k};
    }
    if k in s.keys {
      assert KeyUp(s, e).lastKeyTime.Keys == s.lastKeyTime.Keys - {k};
    }
  }

  /** A key not held goes down: it is pressed, just pressed, and stamped with the time. */
  lemma KeyDownFresh(s: KeyState, e: KeyEvent, now: real)
    requires !IsPressed(s, e.key)
    ensures IsPressed(KeyDown(s, e, now), e.key) && IsJustPressed(KeyDown(s, e, now), e.key)
    ensures KeyDown(s, e, now).lastKeyTime[Lower(e.key)] == now
    ensures KeyDown(s, e, now).justReleased == s.justReleased
  {
  }

  /** A repeated keydown (auto-repeat) changes neither the just-pressed set nor any stamp. */
  lemma KeyDownRepeat(s: KeyState, e: KeyEvent, now: real)
    requires IsPressed(s, e.key)
    ensures KeyDown(s, e, now).keys == s.keys
    ensures KeyDown(s, e, now).justPressed == s.justPressed
    ensures KeyDown(s, e, now).lastKeyTime == s.lastKeyTime
  {
  }

  /** A keyup of a held key marks it just released; of a key not held, changes no key collection. */
  lemma KeyUpCases(s: KeyState, e: KeyEvent)
    ensures !IsPressed(KeyUp(s, e), e.key)
    ensures IsPressed(s, e.key) ==> IsJustReleased(KeyUp(s, e), e.key)
    ensures !IsPressed(s, e.key) ==>
              KeyUp(s, e).keys == s.keys && KeyUp(s, e).justReleased == s.justReleased
              && KeyUp(s, e).lastKeyTime == s.lastKeyTime
  {
  }

  /** "Just pressed" lasts one frame: the next `clearFrameStates` ends it, the key stays held. */
  lemma JustPressedLastsOneFrame(s: KeyState, e: KeyEvent, now: real)
    requires !IsPressed(s, e.key)
    ensures IsJustPressed(KeyDown(s, e, now), e.key)
    ensures !IsJustPressed(ClearFrame(KeyDown(s, e, now)), e.key)
    ensures IsPressed(ClearFrame(KeyDown(s, e, now)), e.key)
  {
  }

  /** The reset empties the key collections and keeps the modifiers and caps lock. */
  lemma ResetForgetsKeys(s: KeyState, key: string, duration: real, now: real)
    ensures !IsPressed(Reset(s), key) && !IsJustPressed(Reset(s), key) && !IsJustReleased(Reset(s), key)
    ensures !IsHeld(Reset(s), key, now, duration)
    ensures Reset(s).modifiers == s.modifiers && Reset(s).capsLock == s.capsLock
  {
  }

  /**
   * After a fresh keydown at a non-zero time `t`, the key is held for `duration` exactly when
   * `duration` has passed since `t`; a stamp of 0 is falsy and never counts as held.
   */
  lemma IsHeldAfterPress(s: KeyState, e: KeyEvent, t: real, duration: real, now: real)
    requires !IsPressed(s, e.key)
    ensures t != 0.0 ==> (IsHeld(KeyDown(s, e, t), e.key, now, duration) <==> now - t >= duration)
    ensures t == 0.0 ==> !IsHeld(KeyDown(s, e, t), e.key, now, duration)
  {
  }

  /** A key held for a duration is held for every shorter one, and by default for 500 ms. */
  lemma IsHeldShorter(s: KeyState, key: string, now: real, d1: real, d2: real)
    requires d1 <= d2
    ensures IsHeld(s, key, now, d2) ==> IsHeld(s, key, now, d1)
    ensures IsHeld(s, key, now) <==> IsHeld(s, key, now, 500.0)
  {
  }

  /** Queries ignore case: asking for `Shift` and for `shift` is the same. */
  lemma QueriesIgnoreCase(s: KeyState, key: string)
    ensures IsPressed(s, key) == IsPressed(s, Lower(key))
    ensures IsJustPressed(s, key) == IsJustPressed(s, Lower(key))
    ensures IsJustReleased(s, key) == IsJustReleased(s, Lower(key))
  {
    LowerIdempotent(key);
  }

  /** An input a `Keyboarder` reacts to, in arrival order. */
  datatype Input = Down(event: KeyEvent, time: real) | Up(event: KeyEvent) | Blur | Frame

  function Step(s: KeyState, i: Input): KeyState {
    match i
    case Down(e, t) => KeyDown(s, e, t)
    case Up(e) => KeyUp(s, e)
    case Blur => Reset(s)
    case Frame => ClearFrame(s)
  }

  /** The state after a sequence of inputs. */
  function Replay(s: KeyState, inputs: seq<Input>): KeyState
    decreases |inputs|
  {
    if inputs == [] then s else Replay(Step(s, inputs[0]), inputs[1..])
  }

  /** From the initial state, whatever the inputs, held keys and stamped keys stay equal. */
  lemma {:induction false} ReplayConsistent(s: KeyState, inputs: seq<Input>)
    requires Consistent(s)
    ensures Consistent(Replay(s, inputs))
    decreases |inputs|
  {
    if inputs != [] {
      match inputs[0] {
        case Down(e, t) => StepsKeepConsistent(s, e, t);
        case Up(e) => StepsKeepConsistent(s, e, 0.0);
        case Blur => StepsKeepConsistent(s, KeyEvent("", false, false, false, false, None), 0.0);
        case Frame => StepsKeepConsistent(s, KeyEvent("", false, false, false, false, None), 0.0);
      }
      ReplayConsistent(Step(s, inputs[0]), inputs[1..]);
    }
  }

  /** Every held key is stamped, so after any inputs `isHeld` depends on the stamp alone. */
  lemma HeldKeysAreStamped(inputs: seq<Input>, key: string)
    ensures IsPressed(Replay(Initial, inputs), key) ==> Lower(key) in Replay(Initial, inputs).lastKeyTime
  {
    ReplayConsistent(Initial, inputs);
  }

  class Keyboarder {
    var keys: set<string>
    var justPressed: set<string>
    var justReleased: set<string>
    var lastKeyTime: map<string, real>
    var modifiers: Modifiers
    var capsLock: bool

    function State(): KeyState
      reads this
    {
      KeyState(keys, justPressed, justReleased, lastKeyTime, modifiers, capsLock)
    }

    constructor ()
      ensures State() == Initial
    {
      keys, justPressed, justReleased, lastKeyTime := {}, {}, {}, map[];
      modifiers, capsLock := NoModifiers, false;
    }

    /** `handleKeyDown` at time `now`; the result says whether the browser default is cancelled. */
    method HandleKeyDown(e: KeyEvent, now: real) returns (preventDefault: bool)
      modifies this
      ensures State() == KeyDown(old(State()), e, now)
      ensures preventDefault <==> Lower(e.key) in PreventDefaultKeys
    {
      var key := Lower(e.key);
      preventDefault := key in PreventDefaultKeys;
      if key !in keys {
        justPressed := justPressed + {key};
        lastKeyTime := lastKeyTime[key := now];
      }
      keys := keys + {key};
      UpdateModifiers(e);
      CheckCapsLock(e);
    }

    method HandleKeyUp(e: KeyEvent)
      modifies this
      ensures State() == KeyUp(old(State()), e)
    {
      var key := Lower(e.key);
      if key in keys {
        justReleased := justReleased + {key};
        lastKeyTime := lastKeyTime - {key};
      }
      keys := keys - {key};
      UpdateModifiers(e);
    }

    method ResetKeys()
      modifies this
      ensures State() == Reset(old(State()))
    {
      keys := {};
      justPressed := {};
      justReleased := {};
      lastKeyTime := map[];
    }

    method UpdateModifiers(e: KeyEvent)
      modifies this
      ensures State() == old(State()).(modifiers := ModifiersOf(e))
    {
      modifiers := ModifiersOf(e);
    }

    method CheckCapsLock(e: KeyEvent)
      modifies this
      ensures State() == old(State()).(capsLock := CapsLockAfter(old(State()), e))
    {
      if e.capsLock.Some? {
        capsLock := e.capsLock.value;
      }
    }

    method ClearFrameStates()
      modifies this
      ensures State() == ClearFrame(old(State()))
    {
      justPressed := {};
      justReleased := {};
    }

    /** `areKeysPressed`: the `every` over the arguments, as a loop. */
    method AreKeysPressedNow(ks: seq<string>) returns (all: bool)
      ensures all == AreKeysPressed(State(), ks)
    {
      all := true;
      var i := 0;
      while i < |ks| && all
        invariant 0 <= i <= |ks|
        invariant all == AreKeysPressed(State(), ks[..i])
      {
        all := Lower(ks[i]) in keys;
        assert ks[..i + 1] == ks[..i] + [ks[i]];
        i := i + 1;
      }
      if !all {
        assert !AreKeysPressed(State(), ks[..i]);
        var j :| 0 <= j < i && Lower(ks[..i][j]) !in keys;
        assert ks[..i][j] == ks[j];
      } else {
        assert ks[..i] == ks;
      }
    }

    predicate IsCapsLockOn()
      reads this
      ensures IsCapsLockOn() <==> State().capsLock
    {
      capsLock
    }
  }
}

=== FILE: mouse.dfy ===
/**
 * The `Mouse` class of both drafts: a position, three button flags and a scroll delta,
 * each set by one DOM event handler. Handlers take the event's fields as parameters.
 */
module Pointer {
  import opened Geometry

  /** The `buttons` object: one flag per button. */
  datatype Buttons = Buttons(left: bool, middle: bool, right: bool)

  const Released := Buttons(false, false, false)

  /**
   * `setButtonState`: three independent `if`s map `event.button` 0, 1 and 2 to the left,
   * middle and right flag; any other code changes nothing.
   */
  function WithButton(b: Buttons, code: int, pressed: bool): Buttons {
    var b1 := if code == 0 then b.(left := pressed) else b;
    var b2 := if code == 1 then b1.(middle := pressed) else b1;
    if code == 2 then b2.(right := pressed) else b2
  }

  /** The name a button code reads back under, if any. */
  function CodeName(code: int): string {
    if code == 0 then "left" else if code == 1 then "middle" else if code == 2 then "right" else ""
  }

  /**
   * The properties every object inherits from `Object.prototype` in a standard environment.
   * Each is a function or an object, so reading one through `buttons[name]` is truthy.
   */
  const InheritedNames: set<string> := {
    "constructor", "hasOwnProperty", "isPrototypeOf", "propertyIsEnumerable",
    "toLocaleString", "toString", "valueOf", "__proto__",
    "__defineGetter__", "__defineSetter__", "__lookupGetter__", "__lookupSetter__"
  }

  /**
   * `!!this.buttons[name]`: the three own flags by name, true for an inherited property, and
   * `false` (from `undefined`) for any other name.
   */
  predicate Flag(b: Buttons, name: string) {
    if name == "left" then b.left
    else if name == "middle" then b.middle
    else if name == "right" then b.right
    else name in InheritedNames
  }

  /** A button set by code reads back under its name; every other flag keeps its value. */
  lemma WithButtonReadsBack(b: Buttons, code: int, pressed: bool, name: string)
    ensures 0 <= code <= 2 ==> Flag(WithButton(b, code, pressed), CodeName(code)) == pressed
    ensures name != CodeName(code) ==> Flag(WithButton(b, code, pressed), name) == Flag(b, name)
    ensures !(0 <= code <= 2) ==> WithButton(b, code, pressed) == b
  {
  }

  /** Setting a button twice is setting it once to the later value. */
  lemma WithButtonLastWins(b: Buttons, code: int, p: bool, q: bool)
    ensures WithButton(WithButton(b, code, p), code, q) == WithButton(b, code, q)
  {
  }

  /**
   * The client's `updatePosition`: the offset into the displayed box, scaled by the ratio
   * of the canvas's own size to its displayed size.
   */
  function ScaledPosition(client: Point, box: Box, canvas: Size): Point
    requires box.width != 0.0 && box.height != 0.0
  {
    Point((client.x - box.x) * (canvas.width / box.width), (client.y - box.y) * (canvas.height / box.height))
  }

  /** The archive's `updatePosition`: the offset into the displayed box, unscaled. */
  function OffsetPosition(client: Point, box: Box): Point {
    Point(client.x - box.x, client.y - box.y)
  }

  /**
   * The displayed box's top-left corner maps to the canvas origin and its bottom-right corner
   * to the canvas size; when the box is displayed at the canvas's own size the two drafts agree.
   */
  lemma ScaledPositionCorners(box: Box, canvas: Size, client: Point)
    requires box.width != 0.0 && box.height != 0.0
    ensures ScaledPosition(AnchorPoint(box, TopLeft), box, canvas) == Point(0.0, 0.0)
    ensures ScaledPosition(AnchorPoint(box, BottomRight), box, canvas) == Point(canvas.width, canvas.height)
    ensures SizeOf(box) == canvas ==> ScaledPosition(client, box, canvas) == OffsetPosition(client, box)
  {
    assert box.width * (canvas.width / box.width) == canvas.width;
    assert box.height * (canvas.height / box.height) == canvas.height;
    if SizeOf(box) == canvas {
      assert canvas.width / box.width == 1.0;
      assert canvas.height / box.height == 1.0;
    }
  }

  class Mouse {
    var x: real
    var y: real
    var buttons: Buttons
    var scrollDelta: real

    constructor ()
      ensures x == 0.0 && y == 0.0 && buttons == Released && scrollDelta == 0.0
    {
      x, y, buttons, scrollDelta := 0.0, 0.0, Released, 0.0;
    }

    /** `updatePosition` of the client draft; the displayed size must not be zero. */
    method UpdatePosition(client: Point, box: Box, canvas: Size)
      requires box.width != 0.0 && box.height != 0.0
      modifies this
      ensures Point(x, y) == ScaledPosition(client, box, canvas)
      ensures buttons == old(buttons) && scrollDelta == old(scrollDelta)
    {
      var scaleX := canvas.width / box.width;
      var scaleY := canvas.height / box.height;
      x := (client.x - box.x) * scaleX;
      y := (client.y - box.y) * scaleY;
    }

    /** `updatePosition` of the archive draft. */
    method UpdatePositionUnscaled(client: Point, box: Box)
      modifies this
      ensures Point(x, y) == OffsetPosition(client, box)
      ensures buttons == old(buttons) && scrollDelta == old(scrollDelta)
    {
      x := client.x - box.x;
      y := client.y - box.y;
    }

    /** `setButtonState`, for `mousedown` (pressed) and `mouseup` (released). */
    method SetButtonState(code: int, pressed: bool)
      modifies this
      ensures buttons == WithButton(old(buttons), code, pressed)
      ensures x == old(x) && y == old(y) && scrollDelta == old(scrollDelta)
    {
      if code == 0 {
        buttons := buttons.(left := pressed);
      }
      if code == 1 {
        buttons := buttons.(middle := pressed);
      }
      if code == 2 {
        buttons := buttons.(right := pressed);
      }
    }

    /** `resetButtons`, on `mouseleave`. */
    method ResetButtons()
      modifies this
      ensures buttons == Released
      ensures x == old(x) && y == old(y) && scrollDelta == old(scrollDelta)
    {
      buttons := buttons.(left := false);
      buttons := buttons.(middle := false);
      buttons := buttons.(right := false);
    }

    /** `handleScroll`: the wheel event's vertical delta. */
    method HandleScroll(deltaY: real)
      modifies this
      ensures scrollDelta == deltaY
      ensures x == old(x) && y == old(y) && buttons == old(buttons)
    {
      scrollDelta := deltaY;
    }

    /** `resetScroll`. */
    method ResetScroll()
      modifies this
      ensures scrollDelta == 0.0 && !IsScrollingUp() && !IsScrollingDown()
      ensures x == old(x) && y == old(y) && buttons == old(buttons)
    {
      scrollDelta := 0.0;
    }

    /**
     * `isPressed` (of the left button by default): the three button names read their flag, an
     * inherited `Object.prototype` name always reads as pressed, and any other name never does.
     */
    predicate IsPressed(name: string := "left")
      reads this
      ensures IsPressed(name) ==> name == "left" || name == "middle" || name == "right" || name in InheritedNames
      ensures name == "left" ==> (IsPressed(name) <==> buttons.left)
      ensures name == "middle" ==> (IsPressed(name) <==> buttons.middle)
      ensures name == "right" ==> (IsPressed(name) <==> buttons.right)
      ensures name in InheritedNames ==> IsPressed(name)
    {
      Flag(buttons, name)
    }

    /** `isReleased` is the negation of `isPressed` for every name. */
    predicate IsReleased(name: string := "left")
      reads this
      ensures IsReleased(name) <==> !IsPressed(name)
    {
      !Flag(buttons, name)
    }

    function GetPosition(): (p: Point)
      reads this
      ensures p.x == x && p.y == y
    {
      Point(x, y)
    }

    /** Scrolling up and down exclude each other. */
    predicate IsScrollingUp()
      reads this
      ensures IsScrollingUp() ==> !IsScrollingDown()
    {
      scrollDelta < 0.0
    }

    /** Scrolling down needs a non-zero delta, so it ends with `resetScroll`. */
    predicate IsScrollingDown()
      reads this
      ensures IsScrollingDown() ==> scrollDelta != 0.0
    {
      scrollDelta > 0.0
    }
  }

  /** A non-zero delta is scrolling in exactly one direction; a zero delta is neither. */
  lemma ScrollDirections(m: Mouse)
    ensures m.IsScrollingUp() || m.IsScrollingDown() <==> m.scrollDelta != 0.0
    ensures !(m.IsScrollingUp() && m.IsScrollingDown())
  {
  }

  /** After `mouseleave` no button reads as pressed; only the inherited names still do. */
  lemma ReleasedHasNoPressedButton(name: string)
    ensures Flag(Released, name) <==> name in InheritedNames
    ensures !Flag(Released, CodeName(0)) && !Flag(Released, CodeName(1)) && !Flag(Released, CodeName(2))
  {
  }
}

=== FILE: radix.dfy ===
/**
 * JavaScript's integer-to-text conversion (`Number.prototype.toString(radix)`) and
 * `parseInt(text, 16)`, restricted to what the colour code needs: integer values,
 * radix 10 and 16, and the digit alphabet 0-9, a-f (A-F accepted when parsing).
 */
module Radix {
  import opened Common

  predicate IsHexDigit(c: char) {
    '0' <= c <= '9' || 'a' <= c <= 'f' || 'A' <= c <= 'F'
  }

  /** A digit JavaScript prints: never an upper-case letter. */
  predicate IsLowerHexDigit(c: char) {
    '0' <= c <= '9' || 'a' <= c <= 'f'
  }

  function DigitValue(c: char): (v: nat)
    requires IsHexDigit(c)
    ensures v < 16
    ensures '0' <= c <= '9' ==> v < 10
  {
    if '0' <= c <= '9' then c as int - '0' as int
    else if 'a' <= c <= 'f' then c as int - 'a' as int + 10
    else c as int - 'A' as int + 10
  }

  /** The digit that `toString` prints for a digit value below 16. */
  function DigitChar(d: nat): (c: char)
    requires d < 16
    ensures IsLowerHexDigit(c) && DigitValue(c) == d
  {
    if d < 10 then ('0' as int + d) as char else ('a' as int + d - 10) as char
  }

  /** Every character of `s` is a digit of radix `base`. */
  predicate AllDigits(s: string, base: nat) {
    forall i :: 0 <= i < |s| ==> IsHexDigit(s[i]) && DigitValue(s[i]) < base
  }

  /** The value of a digit string in radix `base`, most significant digit first. */
  function ValueOf(s: string, base: nat): nat
    requires AllDigits(s, base)
  {
    if s == [] then 0
    else
      var init := s[..|s| - 1];
      assert forall i :: 0 <= i < |init| ==> init[i] == s[i];
      var high := ValueOf(init, base);
      NatProduct(high, base);
      high * base + DigitValue(s[|s| - 1])
  }

  lemma NatProduct(a: nat, b: nat)
    ensures a * b >= 0
  {
  }

  /** `n.toString(base)` for a non-negative integer: lower-case digits, no leading zero. */
  function NatToString(n: nat, base: nat): (s: string)
    requires 2 <= base <= 16
    ensures 1 <= |s|
    ensures AllDigits(s, base)
    ensures forall i :: 0 <= i < |s| ==> IsLowerHexDigit(s[i])
    decreases n
  {
    if n < base then [DigitChar(n)]
    else
      var q, d := n / base, n % base;
      DivShrinks(n, base);
      var t := NatToString(q, base);
      AppendDigit(t, DigitChar(d), base);
      t + [DigitChar(d)]
  }

  /** `n.toString(base)` for any integer: a minus sign before the digits of `-n`. */
  function IntToString(n: int, base: nat): (s: string)
    requires 2 <= base <= 16
    ensures 1 <= |s|
    ensures n >= 0 <==> s[0] != '-'
  {
    if n < 0 then "-" + NatToString(-n, base) else NatToString(n, base)
  }

  /** Appending a digit multiplies the value by the radix and adds the digit. */
  lemma ValueOfAppend(t: string, c: char, base: nat)
    requires AllDigits(t, base) && IsHexDigit(c) && DigitValue(c) < base
    ensures AllDigits(t + [c], base)
    ensures ValueOf(t + [c], base) == ValueOf(t, base) * base + DigitValue(c)
  {
    var s := t + [c];
    assert s[..|s| - 1] == t;
  }

  lemma DivShrinks(n: nat, base: nat)
    requires 2 <= base && n >= 1
    ensures n / base < n && n % base < base
    ensures n == (n / base) * base + n % base
  {
  }

  /** Appending a lower-case digit of the radix keeps a lower-case digit string. */
  lemma AppendDigit(t: string, c: char, base: nat)
    requires AllDigits(t, base) && forall i :: 0 <= i < |t| ==> IsLowerHexDigit(t[i])
    requires IsLowerHexDigit(c) && DigitValue(c) < base
    ensures AllDigits(t + [c], base) && forall i :: 0 <= i < |t + [c]| ==> IsLowerHexDigit((t + [c])[i])
  {
  }

  /** Reading back what `NatToString` prints yields the number printed. */
  lemma {:induction false} NatToStringRoundTrip(n: nat, base: nat)
    requires 2 <= base <= 16
    ensures ValueOf(NatToString(n, base), base) == n
  {
    var s := NatToString(n, base);
    if n < base {
      assert s[..|s| - 1] == [];
    } else {
      var q, d := n / base, n % base;
      var t := NatToString(q, base);
      assert s == t + [DigitChar(d)];
      ValueOfAppend(t, DigitChar(d), base);
      DivShrinks(n, base);
      NatToStringRoundTrip(q, base);
    }
  }

  /** Radix 16: one digit exactly below 16, two digits exactly from 16 to 255. */
  lemma HexDigitCount(n: nat)
    ensures |NatToString(n, 16)| == 1 <==> n < 16
    ensures 16 <= n < 256 ==> NatToString(n, 16) == [DigitChar(n / 16), DigitChar(n % 16)]
    ensures n >= 256 ==> |NatToString(n, 16)| >= 3
  {
    if n >= 256 {
      assert n / 16 >= 16;
      assert |NatToString(n / 16, 16)| >= 2;
    }
  }

  /** `k` zero characters. */
  function Zeros(k: nat): (z: string)
    ensures |z| == k && forall i :: 0 <= i < k ==> z[i] == '0'
  {
    if k == 0 then [] else "0" + Zeros(k - 1)
  }

  /** Prefixing zeros until the text is at least `width` long. */
  function PadStart(s: string, width: nat): (p: string)
    ensures |p| == if |s| < width then width else |s|
    ensures p[|p| - |s|..] == s
    ensures forall i :: 0 <= i < |p| - |s| ==> p[i] == '0'
  {
    if |s| < width then Zeros(width - |s|) + s else s
  }

  /** The two characters `s[i]`, `s[i + 1]` are lower-case hex digits spelling `v`. */
  predicate SpellsByte(s: string, i: nat, v: int) {
    i + 1 < |s| && IsLowerHexDigit(s[i]) && IsLowerHexDigit(s[i + 1])
    && DigitValue(s[i]) * 16 + DigitValue(s[i + 1]) == v
  }

  /** A channel value in 0..255 prints, padded to two, as exactly two digits spelling it. */
  lemma {:induction false} PaddedByte(n: int)
    requires 0 <= n <= 255
    ensures |PadStart(IntToString(n, 16), 2)| == 2
    ensures SpellsByte(PadStart(IntToString(n, 16), 2), 0, n)
  {
    var t := NatToString(n, 16);
    HexDigitCount(n);
    if n < 16 {
      assert t == [DigitChar(n)];
      assert PadStart(t, 2) == ['0', DigitChar(n)];
    } else {
      assert PadStart(t, 2) == t == [DigitChar(n / 16), DigitChar(n % 16)];
    }
  }

  // ---------------------------------------------------------------------------
  // parseInt(text, 16)
  // ---------------------------------------------------------------------------

  /** The characters `parseInt` skips at the start: white space and line terminators. */
  predicate IsJsWhitespace(c: char) {
    c == '\t' || c == '\n' || c == '\U{000B}' || c == '\U{000C}' || c == '\r' || c == ' '
    || c == '\U{00A0}' || c == '\U{1680}' || ('\U{2000}' <= c <= '\U{200A}')
    || c == '\U{2028}' || c == '\U{2029}' || c == '\U{202F}' || c == '\U{205F}'
    || c == '\U{3000}' || c == '\U{FEFF}'
  }

  function TrimStart(s: string): (t: string)
    ensures |t| <= |s|
    ensures t == [] || !IsJsWhitespace(t[0])
  {
    if s != [] && IsJsWhitespace(s[0]) then TrimStart(s[1..]) else s
  }

  /** `TrimStart` removes a prefix of white space and nothing else. */
  lemma {:induction false} TrimStartDropsWhitespace(s: string)
    ensures TrimStart(s) == s[|s| - |TrimStart(s)|..]
    ensures forall i :: 0 <= i < |s| - |TrimStart(s)| ==> IsJsWhitespace(s[i])
  {
    if s != [] && IsJsWhitespace(s[0]) {
      TrimStartDropsWhitespace(s[1..]);
      assert s[1..][|s| - 1 - |TrimStart(s)|..] == s[|s| - |TrimStart(s)|..];
      forall i | 1 <= i < |s| - |TrimStart(s)|
        ensures IsJsWhitespace(s[i])
      {
        assert s[i] == s[1..][i - 1];
      }
    }
  }

  /** Length of the longest prefix of radix-16 digits. */
  function HexRun(s: string): (k: nat)
    ensures k <= |s| && AllDigits(s[..k], 16)
    ensures k < |s| ==> !IsHexDigit(s[k])
  {
    if s != [] && IsHexDigit(s[0]) then 1 + HexRun(s[1..]) else 0
  }

  /** Drops one leading `+` or `-`. */
  function StripSign(t: string): (u: string)
    ensures |u| <= |t|
  {
    if |t| > 0 && (t[0] == '-' || t[0] == '+') then t[1..] else t
  }

  /** Drops a leading `0x` or `0X` (radix 16 only). */
  function StripHexPrefix(u: string): (v: string)
    ensures |v| <= |u|
  {
    if |u| >= 2 && u[0] == '0' && (u[1] == 'x' || u[1] == 'X') then u[2..] else u
  }

  /**
   * `parseInt(s, 16)`: skip leading white space, take an optional sign, drop a `0x`/`0X`
   * prefix, then read the longest run of hex digits; no digits at all gives NaN (None).
   */
  function ParseInt16(s: string): Option<int> {
    var t := TrimStart(s);
    var v := StripHexPrefix(StripSign(t));
    var k := HexRun(v);
    var magnitude: int := ValueOf(v[..k], 16);
    if k == 0 then None
    else if t[0] == '-' then Some(-magnitude)
    else Some(magnitude)
  }

  /** `parseInt` of two hex digits (never a sign or `0x`) reads them as one byte. */
  lemma ParseTwoDigits(s: string)
    requires |s| == 2 && IsHexDigit(s[0]) && IsHexDigit(s[1])
    ensures ParseInt16(s).Some? && ParseInt16(s).value == DigitValue(s[0]) * 16 + DigitValue(s[1])
  {
    TwoDigitsUntrimmed(s);
    TwoDigitRun(s);
    assert StripHexPrefix(StripSign(s)) == s;
    assert s[..2] == s;
    TwoDigitValue(s);
  }

  lemma TwoDigitsUntrimmed(s: string)
    requires |s| == 2 && IsHexDigit(s[0])
    ensures TrimStart(s) == s
  {
    assert !IsJsWhitespace(s[0]);
  }

  lemma TwoDigitRun(s: string)
    requires |s| == 2 && IsHexDigit(s[0]) && IsHexDigit(s[1])
    ensures HexRun(s) == 2
  {
    assert HexRun(s[1..][1..]) == 0;
  }

  lemma TwoDigitValue(s: string)
    requires |s| == 2 && AllDigits(s, 16)
    ensures ValueOf(s, 16) == DigitValue(s[0]) * 16 + DigitValue(s[1])
  {
    assert s == [s[0]] + [s[1]];
    ValueOfAppend([], s[0], 16);
    ValueOfAppend([s[0]], s[1], 16);
  }

  /** `s.slice(from, to)` for non-negative bounds: both are clamped to the length. */
  function Slice(s: string, from: nat, to: nat): (r: string)
    ensures from <= to <= |s| ==> r == s[from..to]
    ensures from <= |s| < to ==> r == s[from..]
    ensures to <= from || |s| <= from ==> r == []
    ensures |r| <= |s|
  {
    var lo := if from < |s| then from else |s|;
    var hi := if to < |s| then to else |s|;
    if hi <= lo then [] else s[lo..hi]
  }
}

=== FILE: room_server.dfy ===
/**
 * The bookkeeping of the WebSocket room server (resources/js/graphitejs_server_v0.1.0.js):
 * the set of connected clients and the map from room names to member sets. Sockets are
 * identifiers; whether a socket is open is a set passed in; a send is a recipient in the
 * returned set.
 */
module RoomServer {

  type SocketId = nat

  datatype ServerState = ServerState(clients: set<SocketId>, rooms: map<string, set<SocketId>>)

  const Empty := ServerState({}, map[])

  /** `handleConnection`: the socket becomes a client. */
  function Connect(st: ServerState, s: SocketId): ServerState {
    st.(clients := st.clients + {s})
  }

  /** The members of a room, none if there is no such room. */
  function Members(st: ServerState, room: string): set<SocketId> {
    if room in st.rooms then st.rooms[room] else {}
  }

  /** `joinRoom`: the room is created if missing, and the socket added to it. */
  function Join(st: ServerState, s: SocketId, room: string): ServerState {
    st.(rooms := st.rooms[room := Members(st, room) + {s}])
  }

  /** `leaveRoom`: the socket removed from an existing room, which is kept even if now empty. */
  function Leave(st: ServerState, s: SocketId, room: string): ServerState {
    if room in st.rooms then st.(rooms := st.rooms[room := st.rooms[room] - {s}]) else st
  }

  /** `handleDisconnect`: the socket leaves the clients and every room; emptied rooms are dropped. */
  function Disconnect(st: ServerState, s: SocketId): ServerState {
    ServerState(st.clients - {s}, map r | r in st.rooms && st.rooms[r] - {s} != {} :: st.rooms[r] - {s})
  }

  /** `broadcast`: every open client except the sender. */
  function BroadcastRecipients(st: ServerState, open: set<SocketId>, sender: SocketId): set<SocketId> {
    set c | c in st.clients && c in open && c != sender
  }

  /** `sendToRoom`: every open member of the room, the sender included; none for a missing room. */
  function RoomRecipients(st: ServerState, open: set<SocketId>, room: string): set<SocketId> {
    set c | c in Members(st, room) && c in open
  }

  /** `handleConnection` adds the socket to the clients and changes nothing else. */
  lemma ConnectAddsClientOnly(st: ServerState, s: SocketId)
    ensures s in Connect(st, s).clients && Connect(st, s).clients - {s} == st.clients - {s}
    ensures Connect(st, s).rooms == st.rooms
  {
  }

  /** Joining puts the socket in the room, leaves other rooms alone, and joining twice is joining once. */
  lemma JoinProperties(st: ServerState, s: SocketId, room: string, other: string)
    ensures s in Members(Join(st, s, room), room)
    ensures Members(Join(st, s, room), room) == Members(st, room) + {s}
    ensures other != room ==> Members(Join(st, s, room), other) == Members(st, other)
    ensures Join(Join(st, s, room), s, room) == Join(st, s, room)
    ensures Join(st, s, room).clients == st.clients
  {
    assert Join(Join(st, s, room), s, room).rooms == Join(st, s, room).rooms;
  }

  /** Leaving never deletes a room, and leaving a missing room changes nothing. */
  lemma LeaveProperties(st: ServerState, s: SocketId, room: string)
    ensures Leave(st, s, room).rooms.Keys == st.rooms.Keys
    ensures s !in Members(Leave(st, s, room), room)
    ensures room !in st.rooms ==> Leave(st, s, room) == st
    ensures room in st.rooms && st.rooms[room] == {s} ==> Leave(st, s, room).rooms[room] == {}
    ensures Members(Leave(st, s, room), room) == Members(st, room) - {s}
    ensures forall other :: other != room ==> Members(Leave(st, s, room), other) == Members(st, other)
    ensures Leave(st, s, room).clients == st.clients
  {
  }

  /** After a disconnect no room holds the socket, no room is empty, and the socket is no client. */
  lemma DisconnectProperties(st: ServerState, s: SocketId, room: string)
    ensures s !in Disconnect(st, s).clients && Disconnect(st, s).clients == st.clients - {s}
    ensures forall r :: r in Disconnect(st, s).rooms ==> s !in Disconnect(st, s).rooms[r] && Disconnect(st, s).rooms[r] != {}
    ensures room in Disconnect(st, s).rooms <==> room in st.rooms && !(st.rooms[room] <= {s})
    ensures Members(Disconnect(st, s), room) == Members(st, room) - {s}
  {
    if room in st.rooms && st.rooms[room] <= {s} {
      assert st.rooms[room] - {s} == {};
    }
  }

  /** Broadcast reaches exactly the open clients other than the sender. */
  lemma BroadcastExact(st: ServerState, open: set<SocketId>, sender: SocketId, c: SocketId)
    ensures c in BroadcastRecipients(st, open, sender) <==> c in st.clients && c in open && c != sender
    ensures sender !in BroadcastRecipients(st, open, sender)
  {
  }

  /** A room send reaches exactly the open members, an open member sender too, and nobody for a missing room. */
  lemma RoomSendExact(st: ServerState, open: set<SocketId>, room: string, c: SocketId)
    ensures c in RoomRecipients(st, open, room) <==> room in st.rooms && c in st.rooms[room] && c in open
    ensures room !in st.rooms ==> RoomRecipients(st, open, room) == {}
  {
  }

  /** The part of a message `handleMessage` looks at: its `payload`, or nothing (null or undefined). */
  datatype Payload = Absent | Present(room: string)

  /** A message: text `JSON.parse` rejects, or an object with a `type` and a `payload`. */
  datatype Message = Unparsable | Parsed(kind: string, payload: Payload)

  /**
   * `handleMessage`: the new state and the sockets sent to. Reading `payload.room` of an
   * absent payload throws, and the `catch` leaves everything as it was, like an unknown type
   * or text that is not JSON. No message both changes the state and sends, and only open
   * sockets are sent to.
   */
  function Dispatch(st: ServerState, sender: SocketId, m: Message, open: set<SocketId>): (r: (ServerState, set<SocketId>))
    ensures r.0.clients == st.clients
    ensures r.1 <= open
    ensures r.1 != {} ==> r.0 == st
  {
    match m
    case Unparsable => (st, {})
    case Parsed(kind, payload) =>
      if kind == "broadcast" then (st, BroadcastRecipients(st, open, sender))
      else if kind == "joinRoom" then
        if payload.Absent? then (st, {}) else (Join(st, sender, payload.room), {})
      else if kind == "leaveRoom" then
        if payload.Absent? then (st, {}) else (Leave(st, sender, payload.room), {})
      else if kind == "sendToRoom" then
        if payload.Absent? then (st, {}) else (st, RoomRecipients(st, open, payload.room))
      else (st, {})
  }

  const Kinds: set<string> := {"broadcast", "joinRoom", "leaveRoom", "sendToRoom"}

  /** Text that is not JSON, or an unknown type, changes neither the clients nor the rooms, and sends nothing. */
  lemma DispatchIgnoresUnknown(st: ServerState, sender: SocketId, m: Message, open: set<SocketId>)
    requires m.Unparsable? || m.kind !in Kinds
    ensures Dispatch(st, sender, m, open) == (st, {})
  {
  }

  /** Only `joinRoom` and `leaveRoom` change the state; a message never changes the clients. */
  lemma DispatchKeepsClients(st: ServerState, sender: SocketId, m: Message, open: set<SocketId>)
    ensures Dispatch(st, sender, m, open).0.clients == st.clients
    ensures m.Parsed? && m.kind in {"broadcast", "sendToRoom"} ==> Dispatch(st, sender, m, open).0 == st
  {
  }

  /** Every room member is a connected client. */
  predicate MembersConnected(st: ServerState) {
    forall r :: r in st.rooms ==> st.rooms[r] <= st.clients
  }

  /** What the server reacts to, in arrival order. */
  datatype Event = Connection(socket: SocketId) | Received(sender: SocketId, message: Message) | Close(socket: SocketId)

  function Apply(st: ServerState, e: Event, open: set<SocketId>): ServerState {
    match e
    case Connection(s) => Connect(st, s)
    case Received(s, m) => Dispatch(st, s, m, open).0
    case Close(s) => Disconnect(st, s)
  }

  /** Messages arrive only from connected sockets: the listeners exist from connection to close. */
  predicate Admissible(st: ServerState, events: seq<Event>, open: set<SocketId>)
    decreases |events|
  {
    events == [] ||
    ((events[0].Received? ==> events[0].sender in st.clients)
     && Admissible(Apply(st, events[0], open), events[1..], open))
  }

  function Run(st: ServerState, events: seq<Event>, open: set<SocketId>): ServerState
    decreases |events|
  {
    if events == [] then st else Run(Apply(st, events[0], open), events[1..], open)
  }

  /** One event keeps every member connected, when a message comes from a client. */
  lemma ApplyKeepsMembersConnected(st: ServerState, e: Event, open: set<SocketId>)
    requires MembersConnected(st)
    requires e.Received? ==> e.sender in st.clients
    ensures MembersConnected(Apply(st, e, open))
  {
    match e {
      case Connection(s) =>
      case Received(s, m) =>
        var st2 := Dispatch(st, s, m, open).0;
        forall r | r in st2.rooms
          ensures st2.rooms[r] <= st2.clients
        {
          if m.Parsed? && m.kind == "joinRoom" && m.payload.Present? && r == m.payload.room {
            assert st2.rooms[r] == Members(st, r) + {s};
          }
        }
      case Close(s) =>
    }
  }

  /** Over any admissible run, room members stay connected clients. */
  lemma {:induction false} RunKeepsMembersConnected(st: ServerState, events: seq<Event>, open: set<SocketId>)
    requires MembersConnected(st) && Admissible(st, events, open)
    ensures MembersConnected(Run(st, events, open))
    decreases |events|
  {
    if events != [] {
      ApplyKeepsMembersConnected(st, events[0], open);
      RunKeepsMembersConnected(Apply(st, events[0], open), events[1..], open);
    }
  }

  class Server {
    var clients: set<SocketId>
    var rooms: map<string, set<SocketId>>

    function State(): ServerState
      reads this
    {
      ServerState(clients, rooms)
    }

    constructor ()
      ensures State() == Empty
    {
      clients, rooms := {}, map[];
    }

    method HandleConnection(s: SocketId)
      modifies this
      ensures State() == Connect(old(State()), s)
    {
      clients := clients + {s};
    }

    method JoinRoom(s: SocketId, room: string)
      modifies this
      ensures State() == Join(old(State()), s, room)
    {
      if room !in rooms {
        rooms := rooms[room := {}];
      }
      rooms := rooms[room := rooms[room] + {s}];
    }

    method LeaveRoom(s: SocketId, room: string)
      modifies this
      ensures State() == Leave(old(State()), s, room)
    {
      if room in rooms {
        rooms := rooms[room := rooms[room] - {s}];
      }
    }

    /** `broadcast`: the `forEach` over the clients, collecting the sockets sent to. */
    method Broadcast(sender: SocketId, open: set<SocketId>) returns (sent: set<SocketId>)
      ensures sent == BroadcastRecipients(State(), open, sender)
    {
      sent := {};
      var todo := clients;
      while todo != {}
        invariant todo <= clients
        invariant sent == set c | c in clients - todo && c in open && c != sender
        decreases todo
      {
        var c :| c in todo;
        if c != sender && c in open {
          sent := sent + {c};
        }
        todo := todo - {c};
      }
    }

    /** `sendToRoom`: nothing for a missing room, else the `forEach` over its members. */
    method SendToRoom(room: string, open: set<SocketId>) returns (sent: set<SocketId>)
      ensures sent == RoomRecipients(State(), open, room)
    {
      sent := {};
      if room !in rooms {
        return;
      }
      var members := rooms[room];
      var todo := members;
      while todo != {}
        invariant todo <= members
        invariant sent == set c | c in members - todo && c in open
        decreases todo
      {
        var c :| c in todo;
        if c in open {
          sent := sent + {c};
        }
        todo := todo - {c};
      }
    }

    /** `handleDisconnect`: the `forEach` over the rooms, deleting the socket and any room left empty. */
    method HandleDisconnect(s: SocketId)
      modifies this
      ensures State() == Disconnect(old(State()), s)
    {
      clients := clients - {s};
      ghost var before := rooms;
      var todo := rooms.Keys;
      while todo != {}
        invariant clients == old(clients) - {s}
        invariant todo <= before.Keys
        invariant forall r :: r in todo ==> r in rooms && rooms[r] == before[r]
        invariant forall r :: r in rooms ==> r in before
        invariant forall r :: r in before && r !in todo ==>
                    (r in rooms <==> before[r] - {s} != {}) && (r in rooms ==> rooms[r] == before[r] - {s})
        decreases todo
      {
        var r :| r in todo;
        var members := rooms[r] - {s};
        if members == {} {
          rooms := rooms - {r};
        } else {
          rooms := rooms[r := members];
        }
        todo := todo - {r};
      }
      assert rooms == Disconnect(old(State()), s).rooms;
    }

    /** `handleMessage`: the dispatch on the message type, returning the sockets sent to. */
    method HandleMessage(sender: SocketId, m: Message, open: set<SocketId>) returns (sent: set<SocketId>)
      modifies this
      ensures (State(), sent) == Dispatch(old(State()), sender, m, open)
    {
      sent := {};
      match m {
        case Unparsable =>
        case Parsed(kind, payload) =>
          if kind == "broadcast" {
            sent := Broadcast(sender, open);
          } else if kind == "joinRoom" {
            if payload.Present? {
              JoinRoom(sender, payload.room);
            }
          } else if kind == "leaveRoom" {
            if payload.Present? {
              LeaveRoom(sender, payload.room);
            }
          } else if kind == "sendToRoom" {
            if payload.Present? {
              sent := SendToRoom(payload.room, open);
            }
          }
      }
    }
  }
}
